=== FILE: README.md ===
# DataPipeline table store, modelled in Dafny

This project models the in-memory core of a small pandas-based data pipeline.

The `DataProcessing` class (data_processing.py) holds one data frame and two caches:
- a primary cache of groupings keyed by column name;
- a secondary cache of two-level groupings keyed by `primary + "_" + sub`.

Its operations are:
- format detection by file extension;
- a load that checks the format before the file's existence;
- two order-preserving row filters;
- a sort by a custom category order;
- one- and two-level grouping;
- a lookup that answers `None` rather than failing;
- a save through the same format dispatch as the load.

The driver (main.py) runs one dataset through a fixed sequence of guarded steps: create the output directory, load, filter, keep, sort, cluster, sub-cluster, statistics, save. It runs a whole batch with failures isolated per dataset, or a single dataset by name.

The modules, in dependency order:

- `Base`: `Option`, `Result` (usable with `:-`) and the error kinds the code raises.
- `Text`: ASCII lower-casing and Python-style title-casing, with a position-wise reading of title case and its idempotence.
- `Tables`: a cell `Value` with a `Null` case, rows as maps from column name to cell, tables as a column set plus a sequence of rows, Python's `==` on cells, and `Where`, the order-preserving selection behind `isin` filtering.
- `Formats`: `os.path.splitext` on POSIX paths, the 12-entry extension table, and the dispatch on an explicit format name.
- `Ordering`: categorising a column (title case, then missing outside the category list), ranking with missing values last, and a sort by rank.
- `Grouping`: `groupby` as an exact partition, and its two-level form.
- `Processing`: the store state `Processor(df, clusters, subClusters)` and every method of the class as a pure function from state to state. Each method returns a `Result`, so the error paths are modelled as values.
- `Pipeline`: the dataset options record, output-path resolution, `process_data` with its statistics step reduced to the places it can raise, `load_config`, the batch runner (a loop over the configured names) and the single-dataset entry point.

The file system and the pandas readers and writers are not modelled. They enter as the parameter `Processing.Io`, a record of four total functions:
- `pathExists`, for `os.path.exists`;
- `read`, which maps a format and a path to a table or an error;
- `write`, which maps a format, a path, a table and an optional compression to success or an error;
- `makeDirs`, for `os.makedirs(dir, exist_ok=True)`, which succeeds or fails.

A call into the file system or pandas is therefore an application of one of these functions. The driver creates the output directory before loading (main.py:57-58), and the writer creates the output file's directory before it dispatches an explicit format name (data_processing.py:198-201); both calls are modelled in that order.

The `isin` filters compare cells with Python's `==`: numbers compare by value across types, so `1`, `1.0` and `True` are equal, and a missing value matches a missing value. Grouping and cache lookups compare keys structurally (see "Left out").

## Model

| member | source | states |
|---|---|---|
| `Text.ToLower` | data_processing.py:87 | Lower-casing a character moves an upper-case letter to its own lower-case letter (32 code points down) and leaves every other character alone |
| `Text.ToUpper` | data_processing.py:117 | Upper-casing a character moves a lower-case letter to its own upper-case letter (32 code points up) and leaves every other character alone |
| `Text.CaseRoundTrip` | data_processing.py:87 | Lower-casing after upper-casing is lower-casing, and upper-casing after lower-casing is upper-casing |
| `Text.Lower` | data_processing.py:87 | Lower-casing keeps the length, leaves no upper-case letter, and maps each character on its own |
| `Text.Title` | data_processing.py:117 | `str.title()` on ASCII text; its meaning is stated by `TitleIsTitleCase` (position by position) and `TitleIdempotent` |
| `Text.TitleIsTitleCase` | data_processing.py:117 | Title case, read per position: a letter is upper-cased exactly when the character before it is not a letter, and other characters are unchanged |
| `Text.TitleIdempotent` | data_processing.py:117 | Title-casing an already title-cased string changes nothing |
| `Tables.Same` | data_processing.py:171 | Python's `==` on two cells; `SameIsEquivalence` and `NumbersMatchAcrossTypes` state what it identifies |
| `Tables.SameIsEquivalence` | data_processing.py:171 | The equality `isin` applies is reflexive, symmetric and transitive, and on non-numbers it is structural equality |
| `Tables.NumbersMatchAcrossTypes` | data_processing.py:171 | `1` equals `1.0`, `True` equals `1` and `False` equals `0.0`, while `1` differs from `"1"` and a missing value differs from `0` |
| `Tables.MatchesAnyIff` | data_processing.py:171 | The front-to-back membership scan succeeds exactly when some listed value equals the cell |
| `Tables.IsIn` | data_processing.py:171 | `df[c].isin(vals)` for one row; `MatchesAnyIff` proves it holds exactly when some listed value equals the cell |
| `Tables.ListedValueMatches` | data_processing.py:171 | A cell that appears in the value list is always in it for `isin` |
| `Tables.Select` | data_processing.py:171 | Boolean-mask selection keeps exactly the elements that pass, each as often as in the input, in their original order |
| `Tables.Where` | data_processing.py:168-182 | The `isin` selection keeps exactly the rows whose membership test matches, each as often as in the input, in their original relative order |
| `Tables.WhereCounts` | data_processing.py:170-172 | Keeping the matching rows keeps as many rows as match, and dropping them leaves the rest |
| `Tables.WhereKeepsShape` | data_processing.py:171 | Selecting rows from a frame whose rows all carry its columns gives such a frame again |
| `Tables.WhereSplits` | data_processing.py:168-182 | Dropping the rows in a value list and keeping the rows in it split the frame: every row lands in exactly one part |
| `Tables.DropThenKeepIsEmpty` | data_processing.py:171-179 | Keeping a value list after dropping it leaves no rows |
| `Tables.AllSatisfyOfFewer` | data_processing.py:168-182 | A condition every row meets still holds after some rows are removed |
| `Formats.SplitExt` | data_processing.py:87 | The extension is empty, or it is a suffix of the path that starts with its only dot and contains no separator; `SplitExtAt` and `SplitExtFound` pin it down exactly |
| `Formats.SplitExtAt` | data_processing.py:87 | When a dot has no dot after it, and an earlier non-dot character has no separator from it on, the extension is everything from that dot |
| `Formats.SplitExtFound` | data_processing.py:87 | A non-empty extension always comes from such a dot and character, so with `SplitExtAt` the extension is characterised completely |
| `Formats.SplitExtExamples` | data_processing.py:87 | "a..csv" has extension ".csv", "a.d/file" has none (the dot is in a directory name), and ".csv" has none |
| `Formats.StripLeadingDots` | data_processing.py:87 | The result is a suffix of the input, does not start with a dot, and only dots were removed |
| `Formats.ExtensionKey` | data_processing.py:87 | The lookup key `splitext(p)[1].lower().lstrip('.')`; `ExtensionKeyOfName`, `KeyOfExtension` and `NoDotIsRefused` state its value |
| `Formats.DetectFormat` | data_processing.py:76-113 | Detection succeeds exactly when the lower-cased extension without its dot is in the table; otherwise the error names that extension |
| `Formats.TableMatchesLists` | data_processing.py:90-103 | The extension table maps exactly csv; parquet and pq; json and jsonl; xlsx and xls; feather and ftr; h5, hdf and hdf5 to their six formats |
| `Formats.DetectFormatExact` | data_processing.py:87-111 | A path is detected as a given format exactly when its extension key is one of that format's extensions |
| `Formats.LastIndex` | data_processing.py:87 | The search finds a position holding the character with none after it, or reports -1 when there is none after the start |
| `Formats.LastIndexAt` | data_processing.py:87 | The last occurrence of a character is at a position that holds it with none after it |
| `Formats.LastIndexBefore` | data_processing.py:87 | With no occurrence from a position on, the last occurrence is before it |
| `Formats.SplitExtOfName` | data_processing.py:87 | The extension of `stem.e` is `.e` whenever the stem's last path component has a character other than a dot, so "a..csv" gives ".csv" |
| `Formats.KeyOfExtension` | data_processing.py:87 | Lower-casing `.e` and stripping the leading dot gives `e` lower-cased |
| `Formats.ExtensionKeyOfName` | data_processing.py:87 | For `stem.e`, with the stem's last component not all dots and `e` holding no dot or slash, the lookup key is `e` lower-cased |
| `Formats.LowerOfExtension` | data_processing.py:87 | Lower-casing keeps an extension free of dots and separators, and lower-casing twice is lower-casing once |
| `Formats.DetectIgnoresCase` | data_processing.py:87 | Detection gives the same answer for an extension and its lower-case form |
| `Formats.DetectByLowerKey` | data_processing.py:87-111 | A file `stem.e` is detected as a format exactly when `e`, lower-cased letter by letter, is one of that format's extensions, whatever the case of `e` |
| `Formats.LowerOfCsv` | data_processing.py:87 | "CSV" lower-cases to "csv" |
| `Formats.UpperCaseCsvDetected` | data_processing.py:87-111 | Any file name ending in ".CSV" whose last component has a word before the dot, such as "data.CSV", is detected as CSV |
| `Formats.NoDotIsRefused` | data_processing.py:87-111 | A path without a dot has no extension and is refused |
| `Formats.HiddenNameHasNoExtension` | data_processing.py:87 | A last path component made of leading dots and a word, such as `.csv` or `..csv`, with or without a directory, has an empty extension |
| `Formats.HiddenNameIsRefused` | data_processing.py:87-111 | Such a name, bare or under a directory, is refused with an empty extension |
| `Formats.Dispatch` | data_processing.py:29-48 | An explicit format is accepted exactly when it is csv, parquet, json, excel, xlsx, xls, feather or hdf; the canonical names select their own format, and excel, xlsx and xls select the spreadsheet |
| `Formats.DispatchName` | data_processing.py:29-48 | Every format detection can report dispatches back to that format |
| `Ordering.IndexOf` | data_processing.py:119-125 | A listed category's position is its first occurrence in the order |
| `Ordering.HasDuplicates` | data_processing.py:119 | Some category is listed twice, which `pd.Categorical` refuses; `Processing.SortByCustomOrder` fails exactly then when the column exists |
| `Ordering.Rank` | data_processing.py:119-125 | A listed category ranks by its position in the list, and everything else ranks after all listed categories |
| `Ordering.Categorize` | data_processing.py:117-123 | A cell becomes its title-cased string when that is a listed category, and missing otherwise |
| `Ordering.NormalizeAll` | data_processing.py:117-123 | Categorising a column rewrites every row in place and keeps the row count |
| `Ordering.NormalizeAllAppend` | data_processing.py:117-123 | Categorising is done row by row, so it distributes over concatenation |
| `Ordering.NormalizeAllPermutes` | data_processing.py:117-123 | Categorising two orderings of the same rows gives two orderings of the same categorised rows |
| `Ordering.InsertBy` | data_processing.py:125 | Inserting into a sorted sequence gives a sorted sequence with exactly one more occurrence of the new element |
| `Ordering.SortBy` | data_processing.py:125 | The sort is a permutation of its input and is non-decreasing by the key |
| `Ordering.SortRows` | data_processing.py:125 | `sort_values(na_position='last')` on the categorised column permutes the rows into non-decreasing rank order, missing values last |
| `Ordering.NormalizedColumn` | data_processing.py:119-123 | After categorising, every cell of the column is missing or a listed category, and every row comes from an input row |
| `Ordering.NormalizeKeepsOtherCells` | data_processing.py:117-123 | Categorising one column leaves every other cell of the row unchanged |
| `Ordering.SortKeepsOtherColumn` | data_processing.py:115-126 | A condition on another column that holds of every row before the sort holds of every row after it |
| `Ordering.CategorizeIdempotent` | data_processing.py:117-123 | Categorising an already categorised cell changes nothing |
| `Ordering.UntitledCategoriesMatchNothing` | data_processing.py:117-123 | If no category is written in title case, no cell can match, so the whole column becomes missing |
| `Grouping.ObservedKeys` | data_processing.py:131 | The group keys are exactly the non-missing values the column takes: each such value is a key, and each key is taken by some row |
| `Grouping.Having` | data_processing.py:131 | A group's rows are exactly the rows whose cell is its key, each as often as in the frame, in frame order |
| `Grouping.GroupBy` | data_processing.py:130-132 | `groupby` gives each key's group exactly the rows whose cell is that key, each as often as in the frame; its keys are exactly the observed non-missing values |
| `Grouping.GroupInRowOrder` | data_processing.py:131 | Each group lists its rows in the order of the frame |
| `Grouping.SubGroups` | data_processing.py:144-150 | Grouping every primary group by a second column succeeds exactly when every group has that column, and it partitions each group |
| `Grouping.GroupsDisjoint` | data_processing.py:130-132 | Groups for different keys share no row |
| `Grouping.GroupCoversRow` | data_processing.py:130-132 | A row with a non-missing key is in its key's group exactly as often as in the frame |
| `Grouping.TwoLevelPartition` | data_processing.py:137-153 | A sub-group holds exactly the rows of the frame whose primary and secondary cells are its two keys |
| `Processing.FromTable` | data_processing.py:56-74 | `from_dataframe` starts with the given frame and both caches empty |
| `Processing.ResolveFormat` | data_processing.py:18-48 | Without an explicit format the path's extension decides; an explicit format bypasses detection and is refused unless the dispatch accepts it |
| `Processing.Open` | data_processing.py:7-54 | Detection errors come before the existence check, which comes before an unsupported explicit format. After these, a failing reader's error is the load's error, unchanged. A load succeeds whenever the format resolves, the file exists and the reader succeeds, and then holds what the reader returned, with empty caches |
| `Processing.FilterByColumn` | data_processing.py:168-174 | A missing column is a KeyError. Otherwise exactly the rows outside the drop list remain, in order; the count reported is rows before minus after; the caches are untouched |
| `Processing.KeepOnlyValues` | data_processing.py:176-182 | A missing column is a KeyError. Otherwise exactly the rows inside the keep list remain, in order; the count reported is rows before minus after; the caches are untouched |
| `Processing.FilterThenKeepIsEmpty` | data_processing.py:168-182 | Dropping a value list from a column and then keeping only that list leaves an empty frame |
| `Processing.SortByCustomOrder` | data_processing.py:115-126 | A missing column is a KeyError and a repeated category is an error. Otherwise the rows are a permutation of the categorised rows in rank order, every cell of the column is a category or missing, and the caches are untouched |
| `Processing.CreateClusters` | data_processing.py:128-135 | A missing column is a KeyError. Otherwise the entry for the column becomes a partition of the current frame over its observed keys, and every other cache entry is unchanged |
| `Processing.CreateSubClusters` | data_processing.py:137-153 | A cached primary grouping is reused as it is, and one is built from the frame only when absent. Building fresh succeeds exactly when the frame has the sub column or no primary group exists. The entry under `p_s` partitions every primary group by the sub column, and other entries are unchanged |
| `Processing.GetSubCluster` | data_processing.py:155-166 | Sub-clusters are built only when their key is absent. A present key never fails and changes nothing. The answer is the stored group when both values are present, and `None` otherwise |
| `Processing.StripTrailingSlashes` | data_processing.py:198 | Only trailing separators are removed, and the result does not end in one |
| `Processing.Dirname` | data_processing.py:198 | The directory part is a prefix of the path, empty exactly when the path has no separator. Otherwise it is everything before the last separator with the separators in front of it dropped, or the whole leading run of separators when nothing else precedes it |
| `Processing.DirnameOfShortPaths` | data_processing.py:198 | A bare file name has no directory part, and "/data.csv" has "/" |
| `Processing.DirnameOfNestedPath` | data_processing.py:198 | "out/sub/data.csv" has directory part "out/sub" |
| `Processing.DirnameOfDoubledSeparator` | data_processing.py:198 | "out//data.csv" has directory part "out" |
| `Processing.MakeParent` | data_processing.py:198-201 | The directory is created only when the path has a directory part |
| `Processing.Save` | data_processing.py:184-225 | A detection error comes first; then a failing directory creation; then an unsupported explicit format; then a failing writer, whose error is the save's error unchanged. A successful save created the directory and wrote the current frame in the resolved format, and a save succeeds whenever those steps do |
| `Processing.SelectionsKeepCachesConsistent` | data_processing.py:115-126 | Filtering, keeping and sorting keep the invariant that every cached group holds only rows carrying its key |
| `Processing.ClusteringKeepsCachesConsistent` | data_processing.py:128-153 | Clustering and sub-clustering keep that invariant too |
| `Processing.FreshSubClusterMatches` | data_processing.py:155-166 | A sub-cluster the lookup had to build holds only rows with the requested primary and secondary values |
| `Processing.SubKey` | data_processing.py:142 | The cache key `f"{p}_{s}"`; `SubKeyCollides` and `SubKeyInjectiveInSub` state when two pairs share it |
| `Processing.SubKeyCollides` | data_processing.py:142 | The distinct pairs ("a_b", "c") and ("a", "b_c") share one cache key |
| `Processing.SubKeyInjectiveInSub` | data_processing.py:142 | For a fixed primary column, different sub columns get different cache keys |
| `Processing.CollidingLookupReusesEntry` | data_processing.py:155-163 | After building ("a_b", "c"), a lookup for ("a", "b_c") is answered from that entry without building its own |
| `Processing.SubClustersIgnoreFrame` | data_processing.py:139-140 | With the primary grouping cached, sub-clustering does not depend on the current frame |
| `Processing.FilterLeavesStaleClusters` | data_processing.py:128-174 | After clustering by a column and then dropping some of its values, the cache still holds the dropped groups, and none of their rows is in the frame |
| `Processing.GroupRowHasKey` | data_processing.py:130-131 | Every row of a cached group carries the group's key |
| `Pipeline.JoinPath` | main.py:59 | `os.path.join` ends with the file name. Unless the file name is absolute, the result is the directory, then one slash only when the directory does not already end in one, then the file name (prefix, suffix and length fix it) |
| `Pipeline.JoinPathExamples` | main.py:59 | "out" and "a.csv" give "out/a.csv", as do "out/" and "a.csv"; an absolute name is kept as it is; an empty directory adds nothing |
| `Pipeline.OutputPath` | main.py:57-61 | Without a directory the output path is the file name, and an absolute file name is kept as it is. With a directory and a relative name, it is the directory, a separator when needed, and the file name |
| `Pipeline.CompressionArg` | main.py:126-128 | Compression reaches the writer exactly when it is given and non-empty |
| `Pipeline.FilterStage` | main.py:68-72 | The filter runs only when both filter options are given; it fails exactly when the column is missing, with a KeyError naming it, and otherwise leaves exactly the rows outside the drop list, each as often as before, in their original order |
| `Pipeline.KeepStage` | main.py:74-78 | The keep step runs only when both keep options are given; it fails exactly when the column is missing, with a KeyError naming it, and otherwise leaves exactly the rows inside the keep list, each as often as before, in their original order |
| `Pipeline.SortStage` | main.py:80-84 | The sort runs only when both the primary column and the order are given. It fails with a KeyError when the column is missing and with the duplicate-category error when a category repeats, and otherwise the frame is the categorised rows in rank order |
| `Pipeline.BuildSubClusters` | main.py:91-95 | Sub-clustering the listed columns one after another never changes the frame or the primary clusters |
| `Pipeline.SubColumnsPresentCons` | main.py:93-95 | Every sub column is in every group exactly when the first is and the rest are |
| `Pipeline.BuildSubClustersSucceeds` | main.py:91-95 | Sub-clustering the listed columns succeeds exactly when each of them is in every primary group |
| `Pipeline.BuildSubClustersEntries` | main.py:91-95 | After sub-clustering, each listed column's entry partitions every primary group by that column, and entries under other keys are unchanged |
| `Pipeline.GroupsLackingSubColumn` | main.py:91-95 | Every primary group has every sub column when the frame does; if some group set lacks one the frame lacks, there are no groups at all |
| `Pipeline.ClusterStage` | main.py:86-96 | With a primary column, a missing primary column fails the step, and a present one with present sub columns succeeds. The clusters partition the frame over its observed keys, and every listed sub column has its two-level grouping; a missing sub column is tolerated only when there is no group. Without a primary column nothing is built |
| `Pipeline.Selected` | main.py:68-78 | The rows left by steps 2 and 3 are exactly those outside the filter values (when the filter runs) and inside the keep values (when the keep runs), each as often as loaded, in their loaded order |
| `Pipeline.Transform` | main.py:68-96 | Steps 2 to 6 keep the columns. Without a sort the final rows are the selected rows in their loaded order; with one they are, up to order, the categorised selected rows. Each requested step leaves its condition on the final frame, and the clusters partition the final frame over its observed keys. Nothing changes when no step is requested |
| `Pipeline.StagesKeepSelections` | main.py:68-84 | The filter and keep conditions survive the later steps, except on the column the sort rewrites. The rows after the sort are the selected rows, categorised when the sort runs, and without a sort they are the selected rows in order |
| `Pipeline.StepFailureFailsTransform` | main.py:68-96 | A missing filter, keep or primary column, or a repeated category, fails steps 2 to 6. The error is the first failing step's, in source order: the filter column, the keep column, the primary column, then the repeated category |
| `Pipeline.TransformSucceeds` | main.py:68-96 | With every named column present, no repeated category and every sub column present, steps 2 to 6 succeed |
| `Pipeline.TransformSubColumnsMissing` | main.py:91-95 | If steps 2 to 6 succeed although a sub column is missing, the final frame has no row with a primary value |
| `Pipeline.StatsStage` | main.py:98-120 | With statistics, a primary column and sub columns requested, the step raises IndexError when the primary grouping is empty, and more generally exactly when no primary group has a non-empty first sub-grouping; otherwise it changes nothing |
| `Pipeline.PrepareOutput` | main.py:57-58 | The output directory is created only when one is given |
| `Pipeline.TransformDescribes` | main.py:68-96 | Steps 2 to 6 on a freshly loaded store give a store that meets every clause of the success description |
| `Pipeline.ProcessData` | main.py:22-135 | A failing directory creation, then a load error, then a failing step is the run's error. Once steps 2 to 6 succeed, the run raises IndexError when the statistics step does, fails with the save's error when the save fails, and otherwise returns the transformed store. On success the columns are kept; the rows are the selected rows in order, or up to order and categorised when sorted; the filter, keep and sort conditions hold; the clusters partition the final frame; requested statistics found a primary group; and the final frame was saved |
| `Pipeline.StepFailureFailsRun` | main.py:68-96 | Once the input is loaded, a missing filter, keep or primary column, or a repeated category, fails the run |
| `Pipeline.EmptyGroupingFailsRun` | main.py:98-114 | When the final frame has no primary value and statistics on sub-clusters are requested, the run raises IndexError |
| `Pipeline.MissingInputFails` | main.py:57-65 | With the output directory created and a recognised extension, a missing input file fails the run with FileNotFound |
| `Pipeline.LoadConfig` | main.py:8-18 | A missing or malformed configuration yields no datasets; any other read error propagates |
| `Pipeline.RunOutcome` | main.py:150-156 | A run that raises is recorded as `None`, and a successful one as its store |
| `Pipeline.BatchResults` | main.py:146-156 | The batch result has exactly one entry per configured name |
| `Pipeline.ProcessAllDatasets` | main.py:138-161 | A configuration read error propagates; otherwise the runner visits every configured name once and records each run's own outcome |
| `Pipeline.BatchIsolatesFailures` | main.py:146-156 | Against a fixed file system, a dataset's entry is what running it alone gives, so one run's failure does not stop or change the others; a failing run gives `None` |
| `Pipeline.BatchWithMissingInput` | main.py:146-156 | A batch with one missing input still has an entry for every dataset; that one is `None` and the others are their own runs |
| `Pipeline.UnreadableConfigRunsNothing` | main.py:138-143 | A missing or malformed configuration gives an empty batch result |
| `Pipeline.ProcessSingleDataset` | main.py:164-175 | A configuration read error propagates; an unknown name returns `None` without running anything; a known name runs the pipeline, and its failure is not caught |
| `Pipeline.SingleAgreesWithBatch` | main.py:146-175 | For a configured name the single run and the batch agree; the batch turns a failure into `None` |

## Left out

- Reading and writing files are left out. The pandas readers and writers, `os.path.exists` and `os.makedirs` are the four functions of `Io`.
- Processing.Save: the file-size report after the write (data_processing.py:227-228) is folded into the writer's success; a failing `os.path.getsize` is not a separate error.
- Console output is left out: every `print`, including the counts that `filter_by_column` and `keep_only_values` print and the statistics lines. The dropped count is returned as a value instead.
- The `__main__` command-line dispatch and its usage text (main.py:180-225) are left out, because they are argument handling and printing.
- `json.load` is left out. A configuration is missing, malformed, unreadable for another reason, or a parsed map from dataset name to options.
- Pipeline.ProcessAllDatasets: a configuration entry with a missing `input_file` or `output_file`, or with an unknown key, makes `process_data(**config)` raise TypeError; the model has no such entry, as a configuration is a record with every option present.
- Pipeline.ProcessAllDatasets: the file system is held fixed for the whole batch. One dataset's save cannot create or overwrite a later dataset's input, so batches where one dataset reads another's output are not covered.
- Pipeline.BatchIsolatesFailures: holds only for a file system that is the same for every run of the batch, as above.
- Pipeline.SingleAgreesWithBatch: compares the single run with the batch against the same fixed file system.
- Pipeline.StatsStage: when some primary groups have an empty first sub-grouping and others do not, line 114 raises only if pandas lists an empty one first. The model does not fix pandas' key order and reports success there. After a sort, pandas may also list unobserved categories as empty primary groups, so a run the model accepts can still raise at line 114.
- Processing.SortByCustomOrder: on an error the model returns no state. The source has already title-cased the column (line 117) when `pd.Categorical` rejects a repeated category, and a caller that catches the error sees that partial change.
- Processing.CreateSubClusters: on an error the model returns no state. The source has already stored the fresh primary grouping (line 140) and an empty entry under `p_s` (line 142) when a group lacks the sub column.
- Formats.SplitExt: POSIX paths only; Windows separators and drive letters are not modelled.
- Pipeline.JoinPath: POSIX `os.path.join` only.
- Processing.Dirname: POSIX `os.path.dirname` only.
- Text.Lower: lower-casing is ASCII-only. Python's Unicode case mapping is not modelled.
- Text.TitleIsTitleCase: title case is ASCII-only. Python's Unicode rule on which characters count as cased is not modelled.
- Ordering.Categorize: a non-string cell of an object column becomes missing. The `AttributeError` that `.str` raises on a column with no strings at all is not modelled.
- Ordering.SortRows: the order among rows of equal rank is not stated, because `sort_values` does not promise stability with its default algorithm.
- Grouping.GroupBy: keys are compared structurally, while pandas merges keys Python finds equal (`1`, `1.0`, `True`). After loading, a column holds one numeric type, so this matters only for object columns mixing booleans and numbers.
- Grouping.GroupBy: groups exist only for observed, non-missing keys; `PartitionOf` leaves open whether missing keys or unobserved categories get groups, which depends on pandas defaults.
- Processing.GetSubCluster: looks keys up structurally, where a Python dict would also find `1.0` under the key `1`.
- Tables.Where: `Real` cells are exact rationals; floating-point rounding and NaN other than the missing value are not modelled.
- Pipeline.ProcessAllDatasets: a configuration entry is a fully typed record. A key it leaves out takes `process_data`'s default (`show_stats` true, every other option `None`), and every option is assumed to have its documented type. A string `sub_columns` (iterated character by character at main.py:91) or a string `filter_values` or `keep_values` (which `isin` refuses with TypeError) is not modelled.
- The iteration order of groups and of the configuration map is not modelled. Groupings are maps, and the batch result is a map.

=== FILE: base.dfy ===
/** Failure-carrying wrappers shared by every module of the pipeline model.
    `Error` lists the exceptions the table store and the driver can raise. */
module Base {

  /** Python's `None` versus a present value. */
  datatype Option<+T> = None | Some(value: T)

  /** The exceptions raised along the modelled paths. */
  datatype Error =
    | UnsupportedExtension(ext: string)  // ValueError from extension detection
    | UnsupportedFormat(name: string)    // ValueError from the explicit-format dispatch
    | FileNotFound(path: string)         // input path does not exist
    | KeyError(column: string)           // a column the table does not have
    | DuplicateCategories                // pd.Categorical refuses repeated categories
    | IoFailure(message: string)         // any failure inside an abstract reader, writer or directory creation
    | IndexError                         // taking the first element of an empty key list

  /** A value or the exception that replaced it; usable with `:-`. */
  datatype Result<+T> = Ok(value: T) | Err(error: Error) {

    predicate IsFailure() {
      Err?
    }

    function PropagateFailure<U>(): Result<U>
      requires Err?
    {
      Err(error)
    }

    function Extract(): T
      requires Ok?
    {
      value
    }
  }
}

=== FILE: formats.dfy ===
/** Format resolution: the extension table used when no format is given, and
    the dispatch on an explicit format name used by the reader and writer. */
module Formats {
  import opened Base
  import opened Text

  /** The six on-disk encodings the store can read and write. */
  datatype Format = Csv | Parquet | Json | Excel | Feather | Hdf

  /** The canonical name extension detection reports for a format. */
  function Name(f: Format): string {
    match f
    case Csv => "csv"
    case Parquet => "parquet"
    case Json => "json"
    case Excel => "excel"
    case Feather => "feather"
    case Hdf => "hdf"
  }

  /** The fixed, many-to-one extension table (12 entries). */
  const ExtensionTable: map<string, Format> := map[
    "csv" := Csv,
    "parquet" := Parquet, "pq" := Parquet,
    "json" := Json, "jsonl" := Json,
    "xlsx" := Excel, "xls" := Excel,
    "feather" := Feather, "ftr" := Feather,
    "h5" := Hdf, "hdf" := Hdf, "hdf5" := Hdf
  ]

  /** Index of the last occurrence of `ch` in `s`, or -1. */
  function LastIndex(s: string, ch: char): (r: int)
    ensures -1 <= r < |s|
    ensures r >= 0 ==> s[r] == ch
    ensures forall j | r < j < |s| :: s[j] != ch
    decreases |s|
  {
    if |s| == 0 then -1
    else if s[|s| - 1] == ch then |s| - 1
    else LastIndex(s[..|s| - 1], ch)
  }

  /** The extension part of Python's `os.path.splitext` on a POSIX path: from
      the last dot of the last path component to the end, provided that the
      component has a character other than a dot before it (so a name that is
      only leading dots, like ".csv", has no extension); otherwise "". */
  function SplitExt(p: string): (ext: string)
    ensures ext == "" || (|ext| <= |p| && ext == p[|p| - |ext|..] && ext[0] == '.')
    ensures forall i | 0 <= i < |ext| :: ext[i] != '/'
    ensures forall i | 1 <= i < |ext| :: ext[i] != '.'
  {
    var sep := LastIndex(p, '/');
    var dot := LastIndex(p, '.');
    if dot > sep && exists i | sep + 1 <= i < dot :: p[i] != '.' then p[dot..] else ""
  }

  /** `s.lstrip('.')`. */
  function StripLeadingDots(s: string): (r: string)
    ensures |r| <= |s| && r == s[|s| - |r|..]
    ensures |r| > 0 ==> r[0] != '.'
    ensures forall i | 0 <= i < |s| - |r| :: s[i] == '.'
    decreases |s|
  {
    if |s| > 0 && s[0] == '.' then StripLeadingDots(s[1..]) else s
  }

  /** The lookup key: the extension, lower-cased, without its dot. */
  function ExtensionKey(p: string): string {
    StripLeadingDots(Lower(SplitExt(p)))
  }

  /** Extension-based detection; anything not in the table is an error that
      names the offending extension. */
  function DetectFormat(p: string): (r: Result<Format>)
    ensures r.Ok? <==> ExtensionKey(p) in ExtensionTable
    ensures r.Err? ==> r.error == UnsupportedExtension(ExtensionKey(p))
  {
    var key := ExtensionKey(p);
    if key in ExtensionTable then Ok(ExtensionTable[key]) else Err(UnsupportedExtension(key))
  }

  /** The extensions that stand for each format, listed independently of the table. */
  function ExtensionsOf(f: Format): set<string> {
    match f
    case Csv => {"csv"}
    case Parquet => {"parquet", "pq"}
    case Json => {"json", "jsonl"}
    case Excel => {"xlsx", "xls"}
    case Feather => {"feather", "ftr"}
    case Hdf => {"h5", "hdf", "hdf5"}
  }

  /** The table and the per-format lists agree on every extension. */
  lemma TableMatchesLists(e: string, f: Format)
    ensures (e in ExtensionTable && ExtensionTable[e] == f) <==> e in ExtensionsOf(f)
  {
    if e in ExtensionsOf(f) {
      match f
      case Csv =>
      case Parquet =>
      case Json =>
      case Excel =>
      case Feather =>
      case Hdf =>
    }
  }

  /** Detection yields `f` exactly for the extensions listed for `f`. */
  lemma DetectFormatExact(p: string, f: Format)
    ensures DetectFormat(p) == Ok(f) <==> ExtensionKey(p) in ExtensionsOf(f)
  {
    TableMatchesLists(ExtensionKey(p), f);
  }

  /** The branch chain of the reader and writer on a format name: the six
      canonical names, plus "xlsx" and "xls" for the spreadsheet; anything
      else (including "pq", "h5" or upper case) is unsupported. */
  function Dispatch(name: string): (r: Option<Format>)
    ensures r.Some? <==> name in {"csv", "parquet", "json", "excel", "xlsx", "xls", "feather", "hdf"}
    ensures r.Some? && name != "xlsx" && name != "xls" ==> Name(r.value) == name
    ensures name in {"excel", "xlsx", "xls"} ==> r == Some(Excel)
  {
    if name == "csv" then Some(Csv)
    else if name == "parquet" then Some(Parquet)
    else if name == "json" then Some(Json)
    else if name in ["excel", "xlsx", "xls"] then Some(Excel)
    else if name == "feather" then Some(Feather)
    else if name == "hdf" then Some(Hdf)
    else None
  }

  /** Round trip: the name of a format dispatches back to that format. */
  lemma DispatchName(f: Format)
    ensures Dispatch(Name(f)) == Some(f)
  {
  }

  /** `k` is the last position of `ch` when `ch` is at `k` and not after it. */
  lemma LastIndexAt(s: string, ch: char, k: int)
    requires 0 <= k < |s| && s[k] == ch
    requires forall j | k < j < |s| :: s[j] != ch
    ensures LastIndex(s, ch) == k
  {
  }

  /** No `ch` from position `k` on puts the last one before `k`. */
  lemma LastIndexBefore(s: string, ch: char, k: int)
    requires 0 <= k <= |s|
    requires forall j | k <= j < |s| :: s[j] != ch
    ensures LastIndex(s, ch) < k
  {
  }

  /** `k` is where `splitext` cuts `p`: a dot with no dot after it, and an
      earlier character `j`, not a dot, with no separator from `j` on, so
      that the dot lies in the last path component after a non-dot
      character. Stated position by position, independently of `LastIndex`. */
  ghost predicate ExtensionSplit(p: string, j: int, k: int)
    requires 0 <= j < k < |p|
  {
    && p[k] == '.'
    && p[j] != '.'
    && (forall i | j <= i < |p| :: p[i] != '/')
    && (forall i | k < i < |p| :: p[i] != '.')
  }

  /** Where such a cut exists, the extension is everything from the dot on. */
  lemma SplitExtAt(p: string, j: int, k: int)
    requires 0 <= j < k < |p| && ExtensionSplit(p, j, k)
    ensures SplitExt(p) == p[k..]
  {
    LastIndexAt(p, '.', k);
    LastIndexBefore(p, '/', j);
  }

  /** Conversely, a non-empty extension comes from such a cut; with
      `SplitExtAt`, `splitext` is characterised completely. */
  lemma SplitExtFound(p: string)
    requires SplitExt(p) != ""
    ensures exists j, k | 0 <= j < k < |p| :: ExtensionSplit(p, j, k) && SplitExt(p) == p[k..]
  {
    var sep := LastIndex(p, '/');
    var dot := LastIndex(p, '.');
    var j :| sep + 1 <= j < dot && p[j] != '.';
    assert ExtensionSplit(p, j, dot);
  }

  /** The last path component of `s` has a character other than a dot. */
  ghost predicate HasWordInLastComponent(s: string) {
    exists j | 0 <= j < |s| :: s[j] != '.' && forall i | j <= i < |s| :: s[i] != '/'
  }

  /** The extension of `stem.e` is `.e`, whenever the stem's last path
      component is not made of dots alone (so "a..csv" yields ".csv"). */
  lemma SplitExtOfName(stem: string, e: string)
    requires HasWordInLastComponent(stem)
    requires forall i | 0 <= i < |e| :: e[i] != '/' && e[i] != '.'
    ensures SplitExt(stem + "." + e) == "." + e
  {
    var q := stem + ".";
    var p := q + e;
    var d := |stem|;
    var j :| 0 <= j < d && stem[j] != '.' && forall i | j <= i < d :: stem[i] != '/';
    forall i | j <= i < |p|
      ensures p[i] != '/'
      ensures i > d ==> p[i] != '.'
    {
      if i < d {
        assert p[i] == stem[i];
      } else if i > d {
        assert p[i] == e[i - |q|];
      }
    }
    assert p[j] == stem[j];
    assert ExtensionSplit(p, j, d);
    SplitExtAt(p, j, d);
    assert p[d..] == "." + e;
  }

  /** Three paths where the rules differ from a naive "from the last dot":
      repeated dots before the extension, a dot only in a directory name,
      and a name that is a single leading dot and a word. */
  lemma SplitExtExamples()
    ensures SplitExt("a..csv") == ".csv"
    ensures SplitExt("a.d/file") == ""
    ensures SplitExt(".csv") == ""
  {
    assert ExtensionSplit("a..csv", 0, 2);
    SplitExtAt("a..csv", 0, 2);
    LastIndexAt("a.d/file", '/', 3);
    LastIndexBefore("a.d/file", '.', 3);
    LastIndexAt(".csv", '.', 0);
  }

  /** The lookup key of the extension `.e` is `e` lower-cased. */
  lemma KeyOfExtension(e: string)
    requires forall i | 0 <= i < |e| :: e[i] != '/' && e[i] != '.'
    ensures StripLeadingDots(Lower("." + e)) == Lower(e)
  {
    LowerOfExtension(e);
    var low := Lower(e);
    var t := "." + low;
    var u := Lower("." + e);
    forall i | 0 <= i < |t|
      ensures u[i] == t[i]
    {
      if i > 0 {
        assert ("." + e)[i] == e[i - 1];
      }
    }
    assert u == t;
    assert t[1..] == low;
    assert StripLeadingDots(low) == low;
  }

  /** For a file name `stem.e` whose stem's last component is not all dots
      and whose `e` holds no dot or slash, the lookup key is `e` lower-cased. */
  lemma ExtensionKeyOfName(stem: string, e: string)
    requires HasWordInLastComponent(stem)
    requires forall i | 0 <= i < |e| :: e[i] != '/' && e[i] != '.'
    ensures ExtensionKey(stem + "." + e) == Lower(e)
  {
    SplitExtOfName(stem, e);
    KeyOfExtension(e);
  }

  /** Lower-casing keeps dots and slashes where they were and is idempotent. */
  lemma LowerOfExtension(e: string)
    requires forall i | 0 <= i < |e| :: e[i] != '/' && e[i] != '.'
    ensures forall i | 0 <= i < |Lower(e)| :: Lower(e)[i] != '/' && Lower(e)[i] != '.'
    ensures Lower(Lower(e)) == Lower(e)
  {
    var low := Lower(e);
    forall i | 0 <= i < |low|
      ensures low[i] != '/' && low[i] != '.' && ToLower(low[i]) == low[i]
    {
      assert low[i] == ToLower(e[i]);
    }
  }

  /** Detection ignores the case of the extension. */
  lemma DetectIgnoresCase(stem: string, e: string)
    requires HasWordInLastComponent(stem)
    requires forall i | 0 <= i < |e| :: e[i] != '/' && e[i] != '.'
    ensures DetectFormat(stem + "." + e) == DetectFormat(stem + "." + Lower(e))
  {
    LowerOfExtension(e);
    ExtensionKeyOfName(stem, e);
    ExtensionKeyOfName(stem, Lower(e));
  }

  /** A file `stem.e` is detected as `f` exactly when `e`, lower-cased, is
      one of the extensions listed for `f`, whatever the case of `e`. */
  lemma DetectByLowerKey(stem: string, e: string, f: Format)
    requires HasWordInLastComponent(stem)
    requires forall i | 0 <= i < |e| :: e[i] != '/' && e[i] != '.'
    ensures DetectFormat(stem + "." + e) == Ok(f) <==> Lower(e) in ExtensionsOf(f)
  {
    ExtensionKeyOfName(stem, e);
    DetectFormatExact(stem + "." + e, f);
  }

  /** Upper-case letters lower-case to their own letters: "CSV" gives "csv". */
  lemma LowerOfCsv()
    ensures Lower("CSV") == "csv"
  {
    var low := Lower("CSV");
    assert low[0] == 'c' && low[1] == 's' && low[2] == 'v';
  }

  /** An upper-case extension is detected like its lower-case spelling: a
      file such as "data.CSV" or "out/t.CSV" is a CSV file. */
  lemma UpperCaseCsvDetected(stem: string)
    requires HasWordInLastComponent(stem)
    ensures DetectFormat(stem + "." + "CSV") == Ok(Csv)
  {
    assert forall i | 0 <= i < |"CSV"| :: "CSV"[i] != '/' && "CSV"[i] != '.';
    LowerOfCsv();
    DetectByLowerKey(stem, "CSV", Csv);
  }

  /** A path without any dot has no extension and is refused. */
  lemma NoDotIsRefused(p: string)
    requires forall i | 0 <= i < |p| :: p[i] != '.'
    ensures DetectFormat(p) == Err(UnsupportedExtension(""))
  {
    LastIndexBefore(p, '.', 0);
    assert SplitExt(p) == "";
    assert Lower("") == "";
    assert ExtensionKey(p) == "";
  }

  /** A last path component made of leading dots and a word, such as
      `.csv` or `..csv`, has no extension, with or without a directory. */
  lemma HiddenNameHasNoExtension(pre: string, dots: string, e: string)
    requires pre == "" || pre[|pre| - 1] == '/'
    requires |dots| > 0 && forall i | 0 <= i < |dots| :: dots[i] == '.'
    requires forall i | 0 <= i < |e| :: e[i] != '/' && e[i] != '.'
    ensures SplitExt(pre + dots + e) == ""
  {
    var q := pre + dots;
    var p := q + e;
    var d := |q| - 1;
    forall i | |pre| <= i < |p|
      ensures p[i] != '/'
      ensures i > d ==> p[i] != '.'
      ensures i <= d ==> p[i] == '.'
    {
      if i < |q| {
        assert p[i] == dots[i - |pre|];
      } else {
        assert p[i] == e[i - |q|];
      }
    }
    LastIndexAt(p, '.', d);
    if pre == "" {
      LastIndexBefore(p, '/', 0);
    } else {
      assert p[|pre| - 1] == '/';
      LastIndexAt(p, '/', |pre| - 1);
    }
  }

  /** Such a name is refused, reporting an empty extension. */
  lemma HiddenNameIsRefused(pre: string, dots: string, e: string)
    requires pre == "" || pre[|pre| - 1] == '/'
    requires |dots| > 0 && forall i | 0 <= i < |dots| :: dots[i] == '.'
    requires forall i | 0 <= i < |e| :: e[i] != '/' && e[i] != '.'
    ensures DetectFormat(pre + dots + e) == Err(UnsupportedExtension(""))
  {
    HiddenNameHasNoExtension(pre, dots, e);
    assert Lower("") == "";
    assert ExtensionKey(pre + dots + e) == "";
    assert "" !in ExtensionTable;
  }
}

=== FILE: grouping.dfy ===
/** Grouping rows by the value of a column (`df.groupby(c)`), and grouping
    each group again by a second column. */
module Grouping {
  import opened Base
  import opened Tables

  /** The non-missing values the column takes in the rows. */
  function ObservedKeys(rows: seq<Row>, c: string): (ks: set<Value>)
    ensures forall k | k in ks :: k != Null
    ensures forall i | 0 <= i < |rows| && Cell(rows[i], c) != Null :: Cell(rows[i], c) in ks
    ensures forall k | k in ks :: exists i | 0 <= i < |rows| :: Cell(rows[i], c) == k
  {
    set i | 0 <= i < |rows| && Cell(rows[i], c) != Null :: Cell(rows[i], c)
  }

  /** `g` is a grouping of `t` by `c`: every group keeps the table's columns
      and holds exactly the rows whose `c` cell is the group's key, each as
      often as in `t`; every row with a non-missing key has its group. Whether
      a missing key gets a group, and whether an unobserved key gets an empty
      one, is left open, as the library does not fix either. */
  ghost predicate PartitionOf(g: map<Value, Table>, t: Table, c: string) {
    && (forall k | k in g :: g[k].columns == t.columns && AllHave(g[k].rows, c, k))
    && (forall k, x | k in g :: multiset(g[k].rows)[x] == if Cell(x, c) == k then multiset(t.rows)[x] else 0)
    && (forall i | 0 <= i < |t.rows| && Cell(t.rows[i], c) != Null :: Cell(t.rows[i], c) in g)
  }

  /** The rows whose `c` cell is exactly `k`, in row order. */
  function Having(rows: seq<Row>, c: string, k: Value): (r: seq<Row>)
    ensures AllHave(r, c, k)
    ensures forall x :: multiset(r)[x] == if Cell(x, c) == k then multiset(rows)[x] else 0
    ensures Subsequence(r, rows)
  {
    Select(rows, x => Cell(x, c) == k)
  }

  /** The groups of `t` keyed by the values of `c`, each in row order. */
  function GroupBy(t: Table, c: string): (g: map<Value, Table>)
    ensures PartitionOf(g, t, c)
    ensures g.Keys == ObservedKeys(t.rows, c)
  {
    map k | k in ObservedKeys(t.rows, c) :: Table(t.columns, Having(t.rows, c, k))
  }

  /** Each group lists its rows in the order of the frame. */
  lemma GroupInRowOrder(t: Table, c: string, k: Value)
    requires k in GroupBy(t, c)
    ensures Subsequence(GroupBy(t, c)[k].rows, t.rows)
  {
    assert GroupBy(t, c)[k].rows == Having(t.rows, c, k);
  }

  /** `g2` groups every group of `g` by `s`: the second level of the index. */
  ghost predicate NestedPartitionOf(g2: map<Value, map<Value, Table>>, g: map<Value, Table>, s: string) {
    && g2.Keys == g.Keys
    && forall pv | pv in g :: PartitionOf(g2[pv], g[pv], s)
  }

  /** Group each primary group by `s`. Grouping a group that lacks the column
      is a KeyError; an empty primary grouping never looks at the column. */
  function SubGroups(g: map<Value, Table>, s: string): (r: Result<map<Value, map<Value, Table>>>)
    ensures r.Ok? <==> forall pv | pv in g :: s in g[pv].columns
    ensures r.Err? ==> r.error == KeyError(s)
    ensures r.Ok? ==> NestedPartitionOf(r.value, g, s)
  {
    if exists pv | pv in g :: s !in g[pv].columns then Err(KeyError(s))
    else Ok(map pv | pv in g :: GroupBy(g[pv], s))
  }

  /** Groups for different keys share no row. */
  lemma GroupsDisjoint(g: map<Value, Table>, t: Table, c: string, k1: Value, k2: Value, x: Row)
    requires PartitionOf(g, t, c)
    requires k1 in g && k2 in g && k1 != k2
    ensures !(x in g[k1].rows && x in g[k2].rows)
  {
  }

  /** No row is lost or duplicated: a row with a non-missing key occurs in
      its key's group exactly as often as in the table. */
  lemma GroupCoversRow(g: map<Value, Table>, t: Table, c: string, i: int)
    requires PartitionOf(g, t, c)
    requires 0 <= i < |t.rows| && Cell(t.rows[i], c) != Null
    ensures Cell(t.rows[i], c) in g
    ensures multiset(g[Cell(t.rows[i], c)].rows)[t.rows[i]] == multiset(t.rows)[t.rows[i]]
  {
  }

  /** Read through both levels, a sub-group holds exactly the rows of the
      table whose primary and secondary cells are its two keys. */
  lemma TwoLevelPartition(g2: map<Value, map<Value, Table>>, g: map<Value, Table>, t: Table,
                          p: string, s: string, pv: Value, sv: Value, x: Row)
    requires PartitionOf(g, t, p) && NestedPartitionOf(g2, g, s)
    requires pv in g2 && sv in g2[pv]
    ensures multiset(g2[pv][sv].rows)[x] ==
      if Cell(x, p) == pv && Cell(x, s) == sv then multiset(t.rows)[x] else 0
    ensures AllHave(g2[pv][sv].rows, p, pv) && AllHave(g2[pv][sv].rows, s, sv)
  {
    var sub := g2[pv][sv].rows;
    forall i | 0 <= i < |sub|
      ensures Cell(sub[i], p) == pv
    {
      assert multiset(sub)[sub[i]] > 0;
      assert multiset(g[pv].rows)[sub[i]] > 0;
      assert sub[i] in g[pv].rows;
    }
  }
}

=== FILE: ordering.dfy ===
/** The custom category order: title-casing a column, turning values outside
    the category list into missing ones, and ordering rows by category rank
    with missing values last. */
module Ordering {
  import opened Text
  import opened Tables

  /** Position of `s` in the category list. */
  function IndexOf(order: seq<string>, s: string): (i: nat)
    requires s in order
    ensures i < |order| && order[i] == s
    ensures forall j | 0 <= j < i :: order[j] != s
  {
    if order[0] == s then 0 else 1 + IndexOf(order[1..], s)
  }

  /** The sort key of a categorical cell: its category's position, or
      `|order|` for a missing value, which therefore sorts last. */
  function Rank(v: Value, order: seq<string>): (r: nat)
    ensures r <= |order|
    ensures r < |order| <==> v.Str? && v.s in order
    ensures r < |order| ==> order[r] == v.s
  {
    if v.Str? && v.s in order then IndexOf(order, v.s) else |order|
  }

  /** `.str.title()` followed by `pd.Categorical(..., categories=order)`: a
      string is title-cased and kept when it is a category, every other cell
      becomes missing. */
  function Categorize(v: Value, order: seq<string>): (w: Value)
    ensures w == Null || (w.Str? && w.s in order)
    ensures w != Null <==> v.Str? && Title(v.s) in order
    ensures w != Null ==> w.s == Title(v.s)
  {
    if v.Str? && Title(v.s) in order then Str(Title(v.s)) else Null
  }

  /** The row with its `c` cell categorised; no other cell changes. */
  function Normalize(r: Row, c: string, order: seq<string>): Row {
    r[c := Categorize(Cell(r, c), order)]
  }

  function NormalizeAll(rows: seq<Row>, c: string, order: seq<string>): (out: seq<Row>)
    ensures |out| == |rows|
    ensures forall i | 0 <= i < |rows| :: out[i] == Normalize(rows[i], c, order)
  {
    seq(|rows|, i requires 0 <= i < |rows| => Normalize(rows[i], c, order))
  }

  /** Categorising distributes over concatenation. */
  lemma NormalizeAllAppend(a: seq<Row>, b: seq<Row>, c: string, order: seq<string>)
    ensures NormalizeAll(a + b, c, order) == NormalizeAll(a, c, order) + NormalizeAll(b, c, order)
  {
    var l := NormalizeAll(a + b, c, order);
    var r := NormalizeAll(a, c, order) + NormalizeAll(b, c, order);
    forall i | 0 <= i < |l|
      ensures l[i] == r[i]
    {
      if i < |a| {
        assert (a + b)[i] == a[i];
      } else {
        assert (a + b)[i] == b[i - |a|];
      }
    }
  }

  /** Categorising two orderings of the same rows gives two orderings of the
      same categorised rows. */
  lemma {:induction false} NormalizeAllPermutes(a: seq<Row>, b: seq<Row>, c: string, order: seq<string>)
    requires multiset(a) == multiset(b)
    ensures multiset(NormalizeAll(a, c, order)) == multiset(NormalizeAll(b, c, order))
    decreases |a|
  {
    if |a| == 0 {
      assert |multiset(b)| == 0;
    } else {
      var x := a[0];
      assert x in multiset(b);
      var j :| 0 <= j < |b| && b[j] == x;
      var rest := b[..j] + b[j + 1..];
      assert b == b[..j] + [x] + b[j + 1..];
      assert a == [x] + a[1..];
      assert multiset(b) == multiset(b[..j]) + multiset{x} + multiset(b[j + 1..]);
      assert multiset(a) == multiset{x} + multiset(a[1..]);
      assert multiset(rest) == multiset(b[..j]) + multiset(b[j + 1..]);
      forall y
        ensures multiset(a[1..])[y] == multiset(rest)[y]
      {
        assert multiset(a)[y] == multiset(b)[y];
      }
      assert multiset(a[1..]) == multiset(rest);
      NormalizeAllPermutes(a[1..], rest, c, order);
      NormalizeAllAppend([x], a[1..], c, order);
      NormalizeAllAppend(b[..j] + [x], b[j + 1..], c, order);
      NormalizeAllAppend(b[..j], [x], c, order);
      NormalizeAllAppend(b[..j], b[j + 1..], c, order);
    }
  }

  /** The key the sort orders by. */
  function Key(r: Row, c: string, order: seq<string>): nat {
    Rank(Cell(r, c), order)
  }

  /** Some category is listed twice, which `pd.Categorical` refuses. */
  predicate HasDuplicates(order: seq<string>) {
    exists i, j | 0 <= i < j < |order| :: order[i] == order[j]
  }

  /** Non-decreasing under `key`. */
  ghost predicate SortedBy<T>(xs: seq<T>, key: T -> nat) {
    forall i, j | 0 <= i < j < |xs| :: key(xs[i]) <= key(xs[j])
  }

  /** A first element no larger than any other keeps a sorted sequence sorted. */
  lemma SortedCons<T>(h: T, rest: seq<T>, key: T -> nat)
    requires SortedBy(rest, key)
    requires forall i | 0 <= i < |rest| :: key(h) <= key(rest[i])
    ensures SortedBy([h] + rest, key)
  {
    var r := [h] + rest;
    forall i, j | 0 <= i < j < |r|
      ensures key(r[i]) <= key(r[j])
    {
      assert r[j] == rest[j - 1];
      if i > 0 {
        assert r[i] == rest[i - 1];
      }
    }
  }

  /** A bound on every element of `ys` and on `x` bounds every element of
      any reordering of `ys` plus `x`. */
  lemma BoundOfInsert<T>(h: T, x: T, ys: seq<T>, rest: seq<T>, key: T -> nat)
    requires multiset(rest) == multiset(ys) + multiset{x}
    requires key(h) <= key(x)
    requires forall i | 0 <= i < |ys| :: key(h) <= key(ys[i])
    ensures forall i | 0 <= i < |rest| :: key(h) <= key(rest[i])
  {
    forall i | 0 <= i < |rest|
      ensures key(h) <= key(rest[i])
    {
      assert rest[i] in multiset(rest);
      if rest[i] != x {
        assert rest[i] in multiset(ys);
        var j :| 0 <= j < |ys| && ys[j] == rest[i];
      }
    }
  }

  /** Insert `x` into a sequence sorted by `key`. */
  function InsertBy<T>(x: T, xs: seq<T>, key: T -> nat): (r: seq<T>)
    requires SortedBy(xs, key)
    ensures multiset(r) == multiset(xs) + multiset{x}
    ensures |r| == |xs| + 1
    ensures SortedBy(r, key)
    decreases |xs|
  {
    if |xs| == 0 then [x]
    else if key(x) <= key(xs[0]) then
      SortedCons(x, xs, key);
      [x] + xs
    else
      var head := xs[0];
      var tail := xs[1..];
      assert xs == [head] + tail;
      assert SortedBy(tail, key);
      var rest := InsertBy(x, tail, key);
      BoundOfInsert(head, x, tail, rest, key);
      SortedCons(head, rest, key);
      [head] + rest
  }

  /** Insertion sort by `key`; the order among equal keys is not part of the contract. */
  function SortBy<T>(xs: seq<T>, key: T -> nat): (r: seq<T>)
    ensures multiset(r) == multiset(xs)
    ensures |r| == |xs|
    ensures SortedBy(r, key)
    decreases |xs|
  {
    if |xs| == 0 then []
    else
      assert xs == [xs[0]] + xs[1..];
      InsertBy(xs[0], SortBy(xs[1..], key), key)
  }

  /** Non-decreasing by category rank, missing values after all ranked ones. */
  ghost predicate SortedByRank(rows: seq<Row>, c: string, order: seq<string>) {
    forall i, j | 0 <= i < j < |rows| :: Key(rows[i], c, order) <= Key(rows[j], c, order)
  }

  /** `sort_values(by=c, na_position='last')` on the categorised column. */
  function SortRows(rows: seq<Row>, c: string, order: seq<string>): (r: seq<Row>)
    ensures multiset(r) == multiset(rows)
    ensures |r| == |rows|
    ensures SortedByRank(r, c, order)
  {
    var key := (r: Row) => Key(r, c, order);
    var sorted := SortBy(rows, key);
    assert forall i, j | 0 <= i < j < |sorted| :: key(sorted[i]) <= key(sorted[j]);
    sorted
  }

  /** Every cell of the categorised column is a listed category or missing. */
  lemma NormalizedColumn(rows: seq<Row>, c: string, order: seq<string>, x: Row)
    requires x in multiset(NormalizeAll(rows, c, order))
    ensures Cell(x, c) == Null || (Cell(x, c).Str? && Cell(x, c).s in order)
    ensures exists i | 0 <= i < |rows| :: x == Normalize(rows[i], c, order)
  {
    var out := NormalizeAll(rows, c, order);
    assert x in out;
    var i :| 0 <= i < |out| && out[i] == x;
  }

  /** Categorising does not touch any other column. */
  lemma NormalizeKeepsOtherCells(r: Row, c: string, order: seq<string>, d: string)
    requires d != c
    ensures Cell(Normalize(r, c, order), d) == Cell(r, d)
  {
  }

  /** A row property about another column survives the categorise-and-sort. */
  lemma SortKeepsOtherColumn(rows: seq<Row>, sorted: seq<Row>, c: string, order: seq<string>,
                             d: string, vals: seq<Value>, inside: bool)
    requires d != c
    requires AllSatisfy(rows, d, vals, inside)
    requires multiset(sorted) == multiset(NormalizeAll(rows, c, order))
    ensures AllSatisfy(sorted, d, vals, inside)
  {
    forall k | 0 <= k < |sorted|
      ensures IsIn(sorted[k], d, vals) == inside
    {
      assert sorted[k] in multiset(sorted);
      NormalizedColumn(rows, c, order, sorted[k]);
      var i :| 0 <= i < |rows| && sorted[k] == Normalize(rows[i], c, order);
      NormalizeKeepsOtherCells(rows[i], c, order, d);
    }
  }

  /** Categorising twice is categorising once, because title case is idempotent. */
  lemma CategorizeIdempotent(v: Value, order: seq<string>)
    ensures Categorize(Categorize(v, order), order) == Categorize(v, order)
  {
    if v.Str? {
      TitleIdempotent(v.s);
    }
  }

  /** A category that is not already in title case can never be matched, so
      when no category is, the whole column becomes missing. */
  lemma UntitledCategoriesMatchNothing(v: Value, order: seq<string>)
    requires forall k | 0 <= k < |order| :: Title(order[k]) != order[k]
    ensures Categorize(v, order) == Null
  {
    if v.Str? && Title(v.s) in order {
      var k :| 0 <= k < |order| && order[k] == Title(v.s);
      TitleIdempotent(v.s);
    }
  }
}

=== FILE: pipeline.dfy ===
/** The driver: one dataset's fixed sequence of guarded steps, and the batch
    runner that applies it to every configured dataset while isolating
    failures. */
module Pipeline {
  import opened Base
  import opened Tables
  import opened Formats
  import opened Ordering
  import opened Grouping
  import opened Processing

  /** The keyword options of one dataset's run. */
  datatype DatasetConfig = DatasetConfig(
    inputFile: string,
    outputFile: string,
    outputDir: Option<string>,
    outputFormat: Option<string>,
    compression: Option<string>,
    primaryColumn: Option<string>,
    subColumns: Option<seq<string>>,
    sortOrder: Option<seq<string>>,
    filterColumn: Option<string>,
    filterValues: Option<seq<Value>>,
    keepColumn: Option<string>,
    keepValues: Option<seq<Value>>,
    showStats: bool)

  /** Python truthiness of an optional string or list: present and non-empty. */
  predicate Given<T>(o: Option<seq<T>>) {
    o.Some? && |o.value| > 0
  }

  /** `os.path.join(dir, file)` on POSIX: an absolute `file` replaces the
      directory, and a separator is added only when `dir` does not end in one. */
  function JoinPath(dir: string, file: string): (r: string)
    ensures |file| <= |r| && r[|r| - |file|..] == file
    ensures |file| > 0 && file[0] == '/' ==> r == file
    ensures !(|file| > 0 && file[0] == '/') ==> |dir| <= |r| && r[..|dir|] == dir
    ensures !(|file| > 0 && file[0] == '/') ==>
              |r| == |dir| + |file| + (if |dir| > 0 && dir[|dir| - 1] != '/' then 1 else 0)
    ensures !(|file| > 0 && file[0] == '/') && |dir| > 0 ==> |r| > |file| && r[|r| - |file| - 1] == '/'
  {
    if |file| > 0 && file[0] == '/' then file
    else if |dir| == 0 || dir[|dir| - 1] == '/' then dir + file
    else dir + "/" + file
  }

  /** The three cases of the join: a separator added, one already there,
      and an absolute file name that discards the directory. */
  lemma JoinPathExamples()
    ensures JoinPath("out", "a.csv") == "out/a.csv"
    ensures JoinPath("out/", "a.csv") == "out/a.csv"
    ensures JoinPath("out", "/tmp/a.csv") == "/tmp/a.csv"
    ensures JoinPath("", "a.csv") == "a.csv"
  {
  }

  /** The path the result is written to. */
  function OutputPath(cfg: DatasetConfig): (path: string)
    ensures !Given(cfg.outputDir) ==> path == cfg.outputFile
    ensures |cfg.outputFile| <= |path| && path[|path| - |cfg.outputFile|..] == cfg.outputFile
    ensures |cfg.outputFile| > 0 && cfg.outputFile[0] == '/' ==> path == cfg.outputFile
    ensures Given(cfg.outputDir) && !(|cfg.outputFile| > 0 && cfg.outputFile[0] == '/') ==>
              var dir := cfg.outputDir.value;
              |path| > |cfg.outputFile| && |dir| <= |path| && path[..|dir|] == dir && path[|path| - |cfg.outputFile| - 1] == '/' &&
              |path| == |dir| + |cfg.outputFile| + (if dir[|dir| - 1] != '/' then 1 else 0)
  {
    if Given(cfg.outputDir) then JoinPath(cfg.outputDir.value, cfg.outputFile) else cfg.outputFile
  }

  /** The compression keyword reaches the writer only when it is truthy. */
  function CompressionArg(cfg: DatasetConfig): (r: Option<string>)
    ensures r.Some? <==> Given(cfg.compression)
    ensures r.Some? ==> r == cfg.compression
  {
    if Given(cfg.compression) then cfg.compression else None
  }

  predicate FilterRuns(cfg: DatasetConfig) {
    Given(cfg.filterColumn) && Given(cfg.filterValues)
  }

  predicate KeepRuns(cfg: DatasetConfig) {
    Given(cfg.keepColumn) && Given(cfg.keepValues)
  }

  predicate SortRuns(cfg: DatasetConfig) {
    Given(cfg.primaryColumn) && Given(cfg.sortOrder)
  }

  /** Step 2: drop the filter values, when both filter options are truthy. */
  function FilterStage(st: Processor, cfg: DatasetConfig): (r: Result<Processor>)
    ensures !FilterRuns(cfg) ==> r == Ok(st)
    ensures FilterRuns(cfg) ==> (r.Ok? <==> cfg.filterColumn.value in st.df.columns)
    ensures r.Err? ==> r.error == KeyError(cfg.filterColumn.value)
    ensures r.Ok? ==> r.value.clusters == st.clusters && r.value.subClusters == st.subClusters
    ensures r.Ok? ==> r.value.df.columns == st.df.columns && multiset(r.value.df.rows) <= multiset(st.df.rows)
    ensures r.Ok? && FilterRuns(cfg) ==>
              AllSatisfy(r.value.df.rows, cfg.filterColumn.value, cfg.filterValues.value, false)
    ensures r.Ok? && FilterRuns(cfg) ==> forall x ::
              multiset(r.value.df.rows)[x] ==
                if IsIn(x, cfg.filterColumn.value, cfg.filterValues.value) then 0 else multiset(st.df.rows)[x]
    ensures r.Ok? && FilterRuns(cfg) ==> r.value.df.rows == Where(st.df.rows, cfg.filterColumn.value, cfg.filterValues.value, false)
    ensures r.Ok? ==> Subsequence(r.value.df.rows, st.df.rows)
  {
    SubsequenceRefl(st.df.rows);
    if FilterRuns(cfg) then
      var f :- FilterByColumn(st, cfg.filterColumn.value, cfg.filterValues.value);
      Ok(f.0)
    else Ok(st)
  }

  /** Step 3: keep only the keep values, when both keep options are truthy. */
  function KeepStage(st: Processor, cfg: DatasetConfig): (r: Result<Processor>)
    ensures !KeepRuns(cfg) ==> r == Ok(st)
    ensures KeepRuns(cfg) ==> (r.Ok? <==> cfg.keepColumn.value in st.df.columns)
    ensures r.Err? ==> r.error == KeyError(cfg.keepColumn.value)
    ensures r.Ok? ==> r.value.clusters == st.clusters && r.value.subClusters == st.subClusters
    ensures r.Ok? ==> r.value.df.columns == st.df.columns && multiset(r.value.df.rows) <= multiset(st.df.rows)
    ensures r.Ok? && KeepRuns(cfg) ==>
              AllSatisfy(r.value.df.rows, cfg.keepColumn.value, cfg.keepValues.value, true)
    ensures r.Ok? && KeepRuns(cfg) ==> forall x ::
              multiset(r.value.df.rows)[x] ==
                if IsIn(x, cfg.keepColumn.value, cfg.keepValues.value) then multiset(st.df.rows)[x] else 0
    ensures r.Ok? && KeepRuns(cfg) ==> r.value.df.rows == Where(st.df.rows, cfg.keepColumn.value, cfg.keepValues.value, true)
    ensures r.Ok? ==> Subsequence(r.value.df.rows, st.df.rows)
  {
    SubsequenceRefl(st.df.rows);
    if KeepRuns(cfg) then
      var f :- KeepOnlyValues(st, cfg.keepColumn.value, cfg.keepValues.value);
      Ok(f.0)
    else Ok(st)
  }

  /** Step 4: the custom-order sort, only when a primary column and a sort
      order are both given. */
  function SortStage(st: Processor, cfg: DatasetConfig): (r: Result<Processor>)
    ensures !SortRuns(cfg) ==> r == Ok(st)
    ensures SortRuns(cfg) ==>
              (r.Ok? <==> cfg.primaryColumn.value in st.df.columns && !HasDuplicates(cfg.sortOrder.value))
    ensures r.Err? && cfg.primaryColumn.value !in st.df.columns ==> r.error == KeyError(cfg.primaryColumn.value)
    ensures r.Err? && cfg.primaryColumn.value in st.df.columns ==> r.error == DuplicateCategories
    ensures r.Ok? ==> r.value.clusters == st.clusters && r.value.subClusters == st.subClusters
    ensures r.Ok? ==> r.value.df.columns == st.df.columns && |r.value.df.rows| == |st.df.rows|
    ensures r.Ok? && SortRuns(cfg) ==>
              multiset(r.value.df.rows) == multiset(NormalizeAll(st.df.rows, cfg.primaryColumn.value, cfg.sortOrder.value)) &&
              SortedByRank(r.value.df.rows, cfg.primaryColumn.value, cfg.sortOrder.value)
  {
    if SortRuns(cfg) then SortByCustomOrder(st, cfg.primaryColumn.value, cfg.sortOrder.value)
    else Ok(st)
  }

  /** Step 6: sub-clusters for each sub column in turn, all over the primary
      grouping under `p`. */
  function BuildSubClusters(st: Processor, p: string, subs: seq<string>): (r: Result<Processor>)
    requires p in st.clusters
    ensures r.Ok? ==> r.value.df == st.df && r.value.clusters == st.clusters
    decreases |subs|
  {
    if |subs| == 0 then Ok(st)
    else
      var st1 :- CreateSubClusters(st, p, subs[0]);
      BuildSubClusters(st1, p, subs[1..])
  }

  /** Every sub column is in every primary group. */
  ghost predicate SubColumnsPresent(g: map<Value, Table>, subs: seq<string>) {
    forall i, pv | 0 <= i < |subs| && pv in g :: subs[i] in g[pv].columns
  }

  lemma SubColumnsPresentCons(g: map<Value, Table>, subs: seq<string>)
    requires |subs| > 0
    ensures SubColumnsPresent(g, subs) <==>
              (forall pv | pv in g :: subs[0] in g[pv].columns) && SubColumnsPresent(g, subs[1..])
  {
    if (forall pv | pv in g :: subs[0] in g[pv].columns) && SubColumnsPresent(g, subs[1..]) {
      forall i, pv | 0 <= i < |subs| && pv in g
        ensures subs[i] in g[pv].columns
      {
        if i > 0 {
          assert subs[i] == subs[1..][i - 1];
        }
      }
    }
    if SubColumnsPresent(g, subs) {
      forall j, pv | 0 <= j < |subs[1..]| && pv in g
        ensures subs[1..][j] in g[pv].columns
      {
        assert subs[1..][j] == subs[j + 1];
      }
    }
  }

  /** Sub-clustering a list of columns succeeds exactly when each of them is
      in every primary group. */
  lemma {:induction false} BuildSubClustersSucceeds(st: Processor, p: string, subs: seq<string>)
    requires p in st.clusters
    ensures BuildSubClusters(st, p, subs).Ok? <==> SubColumnsPresent(st.clusters[p], subs)
    decreases |subs|
  {
    if |subs| > 0 {
      SubColumnsPresentCons(st.clusters[p], subs);
      var first := CreateSubClusters(st, p, subs[0]);
      if first.Ok? {
        BuildSubClustersSucceeds(first.value, p, subs[1..]);
      }
    }
  }

  /** After sub-clustering a list of columns, each one's entry partitions the
      primary groups, and every entry under another key is unchanged. */
  lemma {:induction false} BuildSubClustersEntries(st: Processor, p: string, subs: seq<string>)
    requires p in st.clusters
    requires BuildSubClusters(st, p, subs).Ok?
    ensures var r := BuildSubClusters(st, p, subs).value;
            forall i | 0 <= i < |subs| ::
              SubKey(p, subs[i]) in r.subClusters &&
              NestedPartitionOf(r.subClusters[SubKey(p, subs[i])], st.clusters[p], subs[i])
    ensures var r := BuildSubClusters(st, p, subs).value;
            forall k | k in st.subClusters && (forall i | 0 <= i < |subs| :: k != SubKey(p, subs[i])) ::
              k in r.subClusters && r.subClusters[k] == st.subClusters[k]
    decreases |subs|
  {
    if |subs| > 0 {
      var st1 := CreateSubClusters(st, p, subs[0]).value;
      var rest := subs[1..];
      var r := BuildSubClusters(st1, p, rest).value;
      BuildSubClustersEntries(st1, p, rest);
      forall i | 0 <= i < |subs|
        ensures SubKey(p, subs[i]) in r.subClusters
        ensures NestedPartitionOf(r.subClusters[SubKey(p, subs[i])], st.clusters[p], subs[i])
      {
        if i > 0 {
          assert subs[i] == rest[i - 1];
        } else if j :| 0 <= j < |rest| && SubKey(p, subs[0]) == SubKey(p, rest[j]) {
          SubKeyInjectiveInSub(p, subs[0], rest[j]);
        } else {
          assert SubKey(p, subs[0]) in st1.subClusters;
        }
      }
      forall k | k in st.subClusters && (forall i | 0 <= i < |subs| :: k != SubKey(p, subs[i]))
        ensures k in r.subClusters && r.subClusters[k] == st.subClusters[k]
      {
        assert k != SubKey(p, subs[0]);
        forall j | 0 <= j < |rest|
          ensures k != SubKey(p, rest[j])
        {
          assert rest[j] == subs[j + 1];
        }
      }
    }
  }

  /** Every sub column is a column of the frame. */
  predicate SubColumnsIn(cols: set<string>, subs: seq<string>) {
    forall i | 0 <= i < |subs| :: subs[i] in cols
  }

  /** Steps 5 and 6: cluster by the primary column, then sub-cluster, only
      when a primary column is given. */
  function ClusterStage(st: Processor, cfg: DatasetConfig): (r: Result<Processor>)
    ensures !Given(cfg.primaryColumn) ==> r == Ok(st)
    ensures Given(cfg.primaryColumn) && cfg.primaryColumn.value !in st.df.columns ==>
              r == Err(KeyError(cfg.primaryColumn.value))
    ensures (Given(cfg.primaryColumn) && cfg.primaryColumn.value in st.df.columns &&
             (Given(cfg.subColumns) ==> SubColumnsIn(st.df.columns, cfg.subColumns.value))) ==> r.Ok?
    ensures r.Ok? && Given(cfg.primaryColumn) && Given(cfg.subColumns) &&
            !SubColumnsIn(st.df.columns, cfg.subColumns.value) ==>
              ObservedKeys(st.df.rows, cfg.primaryColumn.value) == {}
    ensures r.Ok? ==> r.value.df == st.df
    ensures r.Ok? && Given(cfg.primaryColumn) ==>
              var p := cfg.primaryColumn.value;
              p in r.value.clusters && PartitionOf(r.value.clusters[p], st.df, p) &&
              r.value.clusters[p].Keys == ObservedKeys(st.df.rows, p) &&
              r.value.clusters.Keys == st.clusters.Keys + {p}
    ensures r.Ok? && Given(cfg.primaryColumn) && Given(cfg.subColumns) ==>
              var p := cfg.primaryColumn.value;
              forall i | 0 <= i < |cfg.subColumns.value| ::
                SubKey(p, cfg.subColumns.value[i]) in r.value.subClusters &&
                NestedPartitionOf(r.value.subClusters[SubKey(p, cfg.subColumns.value[i])],
                                  r.value.clusters[p], cfg.subColumns.value[i])
    ensures r.Ok? && Given(cfg.primaryColumn) && !Given(cfg.subColumns) ==> r.value.subClusters == st.subClusters
  {
    if Given(cfg.primaryColumn) then
      var p := cfg.primaryColumn.value;
      var st1 :- CreateClusters(st, p);
      if Given(cfg.subColumns) then
        var subs := cfg.subColumns.value;
        BuildSubClustersSucceeds(st1, p, subs);
        GroupsLackingSubColumn(st1.clusters[p], st.df, p, subs);
        var r := BuildSubClusters(st1, p, subs);
        if r.Ok? then BuildSubClustersEntries(st1, p, subs); r else r
      else Ok(st1)
    else Ok(st)
  }

  /** Over a grouping of `t` by `p`, every group has every sub column exactly
      when the frame has them all, unless there is no group at all. */
  lemma GroupsLackingSubColumn(g: map<Value, Table>, t: Table, p: string, subs: seq<string>)
    requires PartitionOf(g, t, p) && g.Keys == ObservedKeys(t.rows, p)
    ensures SubColumnsIn(t.columns, subs) ==> SubColumnsPresent(g, subs)
    ensures SubColumnsPresent(g, subs) && !SubColumnsIn(t.columns, subs) ==> ObservedKeys(t.rows, p) == {}
  {
  }

  /** The rows steps 2 and 3 select, in their original order: those outside
      the filter values (when the filter runs) and inside the keep values
      (when the keep runs). */
  function Selected(rows: seq<Row>, cfg: DatasetConfig): (r: seq<Row>)
    ensures forall x :: multiset(r)[x] ==
              if (FilterRuns(cfg) ==> !IsIn(x, cfg.filterColumn.value, cfg.filterValues.value)) &&
                 (KeepRuns(cfg) ==> IsIn(x, cfg.keepColumn.value, cfg.keepValues.value))
              then multiset(rows)[x] else 0
    ensures Subsequence(r, rows)
    ensures |r| <= |rows|
  {
    var a := if FilterRuns(cfg) then Where(rows, cfg.filterColumn.value, cfg.filterValues.value, false) else rows;
    SubsequenceRefl(rows);
    if KeepRuns(cfg) then
      var b := Where(a, cfg.keepColumn.value, cfg.keepValues.value, true);
      SubsequenceTrans(b, a, rows);
      b
    else a
  }

  /** The rows a successful run ends with, up to order: the selected rows,
      categorised on the primary column when the sort runs. */
  function FinalRows(rows: seq<Row>, cfg: DatasetConfig): seq<Row> {
    if SortRuns(cfg) then NormalizeAll(Selected(rows, cfg), cfg.primaryColumn.value, cfg.sortOrder.value)
    else Selected(rows, cfg)
  }

  /** A step of 2 to 6 that must raise on a frame with columns `cols`: a
      filter, keep or primary column it lacks, or a repeated category. */
  predicate StepFails(cols: set<string>, cfg: DatasetConfig) {
    || (FilterRuns(cfg) && cfg.filterColumn.value !in cols)
    || (KeepRuns(cfg) && cfg.keepColumn.value !in cols)
    || (Given(cfg.primaryColumn) && cfg.primaryColumn.value !in cols)
    || (SortRuns(cfg) && HasDuplicates(cfg.sortOrder.value))
  }

  /** Steps 2 to 6 on a loaded store: filter, keep, sort, cluster and
      sub-cluster, each only when its options are truthy. */
  function Transform(st0: Processor, cfg: DatasetConfig): (r: Result<Processor>)
    ensures r.Ok? ==> r.value.df.columns == st0.df.columns && |r.value.df.rows| <= |st0.df.rows|
    ensures r.Ok? ==> multiset(r.value.df.rows) == multiset(FinalRows(st0.df.rows, cfg))
    ensures r.Ok? && !SortRuns(cfg) ==> r.value.df.rows == Selected(st0.df.rows, cfg)
    ensures r.Ok? && !FilterRuns(cfg) && !KeepRuns(cfg) && !SortRuns(cfg) ==> r.value.df == st0.df
    ensures r.Ok? && FilterRuns(cfg) && !(SortRuns(cfg) && cfg.primaryColumn.value == cfg.filterColumn.value) ==>
              AllSatisfy(r.value.df.rows, cfg.filterColumn.value, cfg.filterValues.value, false)
    ensures r.Ok? && KeepRuns(cfg) && !(SortRuns(cfg) && cfg.primaryColumn.value == cfg.keepColumn.value) ==>
              AllSatisfy(r.value.df.rows, cfg.keepColumn.value, cfg.keepValues.value, true)
    ensures r.Ok? && SortRuns(cfg) ==> SortedByRank(r.value.df.rows, cfg.primaryColumn.value, cfg.sortOrder.value)
    ensures r.Ok? && Given(cfg.primaryColumn) ==>
              var p := cfg.primaryColumn.value;
              r.value.clusters.Keys == st0.clusters.Keys + {p} && PartitionOf(r.value.clusters[p], r.value.df, p) &&
              r.value.clusters[p].Keys == ObservedKeys(r.value.df.rows, p)
    ensures r.Ok? && Given(cfg.primaryColumn) && Given(cfg.subColumns) ==>
              var p := cfg.primaryColumn.value;
              forall i | 0 <= i < |cfg.subColumns.value| ::
                SubKey(p, cfg.subColumns.value[i]) in r.value.subClusters &&
                NestedPartitionOf(r.value.subClusters[SubKey(p, cfg.subColumns.value[i])],
                                  r.value.clusters[p], cfg.subColumns.value[i])
    ensures r.Ok? && !(Given(cfg.primaryColumn) && Given(cfg.subColumns)) ==> r.value.subClusters == st0.subClusters
    ensures r.Ok? && !Given(cfg.primaryColumn) ==> r.value.clusters == st0.clusters
  {
    var st1 :- FilterStage(st0, cfg);
    var st2 :- KeepStage(st1, cfg);
    var st3 :- SortStage(st2, cfg);
    var st4 :- ClusterStage(st3, cfg);
    StagesKeepSelections(st0, st1, st2, st3, cfg);
    Ok(st4)
  }

  /** The filter and keep conditions established by steps 2 and 3 survive the
      later steps, except on the column the sort rewrites; and the rows after
      the sort are the selected rows, categorised when the sort runs. */
  lemma StagesKeepSelections(st0: Processor, st1: Processor, st2: Processor, st3: Processor, cfg: DatasetConfig)
    requires FilterStage(st0, cfg) == Ok(st1)
    requires KeepStage(st1, cfg) == Ok(st2)
    requires SortStage(st2, cfg) == Ok(st3)
    ensures FilterRuns(cfg) && !(SortRuns(cfg) && cfg.primaryColumn.value == cfg.filterColumn.value) ==>
              AllSatisfy(st3.df.rows, cfg.filterColumn.value, cfg.filterValues.value, false)
    ensures KeepRuns(cfg) && !(SortRuns(cfg) && cfg.primaryColumn.value == cfg.keepColumn.value) ==>
              AllSatisfy(st3.df.rows, cfg.keepColumn.value, cfg.keepValues.value, true)
    ensures |st3.df.rows| <= |st0.df.rows|
    ensures multiset(st3.df.rows) == multiset(FinalRows(st0.df.rows, cfg))
    ensures !SortRuns(cfg) ==> st3.df.rows == Selected(st0.df.rows, cfg)
  {
    assert |multiset(st2.df.rows)| <= |multiset(st1.df.rows)| <= |multiset(st0.df.rows)|;
    var sel := Selected(st0.df.rows, cfg);
    forall x
      ensures multiset(st2.df.rows)[x] == multiset(sel)[x]
    {
    }
    assert multiset(st2.df.rows) == multiset(sel);
    if SortRuns(cfg) {
      NormalizeAllPermutes(st2.df.rows, sel, cfg.primaryColumn.value, cfg.sortOrder.value);
    }
    if FilterRuns(cfg) && !(SortRuns(cfg) && cfg.primaryColumn.value == cfg.filterColumn.value) {
      var d, vals := cfg.filterColumn.value, cfg.filterValues.value;
      AllSatisfyOfFewer(st1.df.rows, st2.df.rows, d, vals, false);
      if SortRuns(cfg) {
        SortKeepsOtherColumn(st2.df.rows, st3.df.rows, cfg.primaryColumn.value, cfg.sortOrder.value, d, vals, false);
      }
    }
    if KeepRuns(cfg) && SortRuns(cfg) && cfg.primaryColumn.value != cfg.keepColumn.value {
      SortKeepsOtherColumn(st2.df.rows, st3.df.rows, cfg.primaryColumn.value, cfg.sortOrder.value,
                           cfg.keepColumn.value, cfg.keepValues.value, true);
    }
  }

  /** A step that must raise fails the whole of steps 2 to 6, and the error
      is that of the first failing step in source order: the filter's column,
      then the keep column, then the primary column, then a repeated category. */
  lemma {:induction false} StepFailureFailsTransform(st0: Processor, cfg: DatasetConfig)
    requires StepFails(st0.df.columns, cfg)
    ensures Transform(st0, cfg).Err?
    ensures FilterRuns(cfg) && cfg.filterColumn.value !in st0.df.columns ==>
              Transform(st0, cfg) == Err(KeyError(cfg.filterColumn.value))
    ensures !(FilterRuns(cfg) && cfg.filterColumn.value !in st0.df.columns) &&
            KeepRuns(cfg) && cfg.keepColumn.value !in st0.df.columns ==>
              Transform(st0, cfg) == Err(KeyError(cfg.keepColumn.value))
    ensures !(FilterRuns(cfg) && cfg.filterColumn.value !in st0.df.columns) &&
            !(KeepRuns(cfg) && cfg.keepColumn.value !in st0.df.columns) &&
            Given(cfg.primaryColumn) && cfg.primaryColumn.value !in st0.df.columns ==>
              Transform(st0, cfg) == Err(KeyError(cfg.primaryColumn.value))
    ensures !(FilterRuns(cfg) && cfg.filterColumn.value !in st0.df.columns) &&
            !(KeepRuns(cfg) && cfg.keepColumn.value !in st0.df.columns) &&
            SortRuns(cfg) && cfg.primaryColumn.value in st0.df.columns && HasDuplicates(cfg.sortOrder.value) ==>
              Transform(st0, cfg) == Err(DuplicateCategories)
  {
    var f := FilterStage(st0, cfg);
    if f.Ok? {
      var k := KeepStage(f.value, cfg);
      if k.Ok? {
        var s := SortStage(k.value, cfg);
        if s.Ok? {
          assert ClusterStage(s.value, cfg).Err?;
        }
      }
    }
  }

  /** With every named column present, no repeated category, and every sub
      column in the frame, steps 2 to 6 succeed. */
  lemma {:induction false} TransformSucceeds(st0: Processor, cfg: DatasetConfig)
    requires !StepFails(st0.df.columns, cfg)
    requires Given(cfg.primaryColumn) && Given(cfg.subColumns) ==> SubColumnsIn(st0.df.columns, cfg.subColumns.value)
    ensures Transform(st0, cfg).Ok?
  {
    var st1 := FilterStage(st0, cfg).value;
    var st2 := KeepStage(st1, cfg).value;
    var st3 := SortStage(st2, cfg).value;
    assert ClusterStage(st3, cfg).Ok?;
  }

  /** A sub-clustering of an empty primary grouping succeeds even when a sub
      column is missing from the frame, since no group is ever grouped. */
  lemma {:induction false} TransformSubColumnsMissing(st0: Processor, cfg: DatasetConfig)
    requires Transform(st0, cfg).Ok? && Given(cfg.primaryColumn) && Given(cfg.subColumns)
    requires !SubColumnsIn(st0.df.columns, cfg.subColumns.value)
    ensures ObservedKeys(Transform(st0, cfg).value.df.rows, cfg.primaryColumn.value) == {}
  {
    var st1 := FilterStage(st0, cfg).value;
    var st2 := KeepStage(st1, cfg).value;
    var st3 := SortStage(st2, cfg).value;
    assert ClusterStage(st3, cfg).Ok?;
  }

  /** Step 7, the statistics printout, reduced to the two places it can
      raise: listing the first primary group of an empty grouping, and
      listing the first sub-group of a primary group with none. Which primary
      group comes first is pandas' key order, which the model does not fix:
      the step fails when every primary group's first sub-grouping is empty
      (in particular when there is no primary group) and succeeds otherwise. */
  function StatsStage(st: Processor, cfg: DatasetConfig): (r: Result<Processor>)
    ensures r.Ok? ==> r.value == st
    ensures r.Err? ==> r.error == IndexError
    ensures !(cfg.showStats && Given(cfg.primaryColumn) && Given(cfg.subColumns)) ==> r == Ok(st)
    ensures cfg.showStats && Given(cfg.primaryColumn) && Given(cfg.subColumns) ==>
              var p, key := cfg.primaryColumn.value, SubKey(cfg.primaryColumn.value, cfg.subColumns.value[0]);
              p in st.clusters && key in st.subClusters && st.clusters[p] == map[] ==> r.Err?
    ensures cfg.showStats && Given(cfg.primaryColumn) && Given(cfg.subColumns) ==>
              var p, key := cfg.primaryColumn.value, SubKey(cfg.primaryColumn.value, cfg.subColumns.value[0]);
              p in st.clusters && key in st.subClusters ==>
                (r.Ok? <==> exists pv | pv in st.clusters[p] :: pv in st.subClusters[key] && st.subClusters[key][pv] != map[])
    ensures r.Err? ==>
              cfg.showStats && Given(cfg.primaryColumn) && Given(cfg.subColumns) && cfg.primaryColumn.value in st.clusters
  {
    if cfg.showStats && Given(cfg.primaryColumn) && Given(cfg.subColumns) then
      var p := cfg.primaryColumn.value;
      var key := SubKey(p, cfg.subColumns.value[0]);
      if p in st.clusters && key in st.subClusters &&
         forall pv | pv in st.clusters[p] && pv in st.subClusters[key] :: st.subClusters[key][pv] == map[]
      then Err(IndexError)
      else Ok(st)
    else Ok(st)
  }

  /** `os.makedirs(output_dir)` when an output directory is given. */
  function PrepareOutput(cfg: DatasetConfig, io: Io): (r: Result<()>)
    ensures !Given(cfg.outputDir) ==> r == Ok(())
    ensures Given(cfg.outputDir) ==> r == io.makeDirs(cfg.outputDir.value)
  {
    if Given(cfg.outputDir) then io.makeDirs(cfg.outputDir.value) else Ok(())
  }

  /** What a successful run promises about its store, given the frame it
      loaded: the columns are kept; the rows are, up to order, exactly the
      selected rows (categorised when the sort runs), and without a sort they
      are the selected rows in their loaded order; the filter and keep
      conditions hold except on a column the sort rewrites; the sort order
      holds; the primary grouping is the only cached one and partitions the
      final frame over its observed keys; each sub column has its two-level
      grouping; and nothing else is cached. */
  ghost predicate Describes(loaded: Table, cfg: DatasetConfig, done: Processor) {
    && done.df.columns == loaded.columns
    && |done.df.rows| <= |loaded.rows|
    && multiset(done.df.rows) == multiset(FinalRows(loaded.rows, cfg))
    && (!SortRuns(cfg) ==> done.df.rows == Selected(loaded.rows, cfg))
    && (!FilterRuns(cfg) && !KeepRuns(cfg) && !SortRuns(cfg) ==> done.df == loaded)
    && (FilterRuns(cfg) && !(SortRuns(cfg) && cfg.primaryColumn.value == cfg.filterColumn.value) ==>
          AllSatisfy(done.df.rows, cfg.filterColumn.value, cfg.filterValues.value, false))
    && (KeepRuns(cfg) && !(SortRuns(cfg) && cfg.primaryColumn.value == cfg.keepColumn.value) ==>
          AllSatisfy(done.df.rows, cfg.keepColumn.value, cfg.keepValues.value, true))
    && (SortRuns(cfg) ==> SortedByRank(done.df.rows, cfg.primaryColumn.value, cfg.sortOrder.value))
    && (Given(cfg.primaryColumn) ==>
          var p := cfg.primaryColumn.value;
          done.clusters.Keys == {p} && PartitionOf(done.clusters[p], done.df, p) &&
          done.clusters[p].Keys == ObservedKeys(done.df.rows, p))
    && (Given(cfg.primaryColumn) && Given(cfg.subColumns) ==>
          var p := cfg.primaryColumn.value;
          forall i | 0 <= i < |cfg.subColumns.value| ::
            SubKey(p, cfg.subColumns.value[i]) in done.subClusters &&
            NestedPartitionOf(done.subClusters[SubKey(p, cfg.subColumns.value[i])],
                              done.clusters[p], cfg.subColumns.value[i]))
    && (!(Given(cfg.primaryColumn) && Given(cfg.subColumns)) ==> done.subClusters == map[])
    && (!Given(cfg.primaryColumn) ==> done.clusters == map[])
  }

  /** Steps 2 to 6 on a freshly loaded store produce a store the loaded
      frame `Describes`. */
  lemma TransformDescribes(st0: Processor, cfg: DatasetConfig)
    requires st0.clusters == map[] && st0.subClusters == map[]
    requires Transform(st0, cfg).Ok?
    ensures Describes(st0.df, cfg, Transform(st0, cfg).value)
  {
  }

  /** `process_data`: create the output directory, load, run steps 2 to 7,
      save; the first failure ends the run. */
  function ProcessData(cfg: DatasetConfig, io: Io): (r: Result<Processor>)
    ensures PrepareOutput(cfg, io).Err? ==> r == Err(PrepareOutput(cfg, io).error)
    ensures PrepareOutput(cfg, io).Ok? && Open(cfg.inputFile, None, io).Err? ==>
              r == Err(Open(cfg.inputFile, None, io).error)
    ensures PrepareOutput(cfg, io).Ok? && Open(cfg.inputFile, None, io).Ok? &&
            Transform(Open(cfg.inputFile, None, io).value, cfg).Err? ==>
              r == Err(Transform(Open(cfg.inputFile, None, io).value, cfg).error)
    ensures r.Ok? ==>
              PrepareOutput(cfg, io).Ok? && Open(cfg.inputFile, None, io).Ok? &&
              Describes(Open(cfg.inputFile, None, io).value.df, cfg, r.value)
    ensures r.Ok? && cfg.showStats && Given(cfg.primaryColumn) && Given(cfg.subColumns) ==>
              ObservedKeys(r.value.df.rows, cfg.primaryColumn.value) != {}
    ensures r.Ok? ==> Save(r.value, OutputPath(cfg), cfg.outputFormat, CompressionArg(cfg), io).Ok?
    ensures PrepareOutput(cfg, io).Ok? && Open(cfg.inputFile, None, io).Ok? &&
            Transform(Open(cfg.inputFile, None, io).value, cfg).Ok? ==>
              var done := Transform(Open(cfg.inputFile, None, io).value, cfg).value;
              var saved := Save(done, OutputPath(cfg), cfg.outputFormat, CompressionArg(cfg), io);
              && (StatsStage(done, cfg).Err? ==> r == Err(IndexError))
              && (StatsStage(done, cfg).Ok? && saved.Err? ==> r == Err(saved.error))
              && (StatsStage(done, cfg).Ok? && saved.Ok? ==> r == Ok(done))
  {
    var made :- PrepareOutput(cfg, io);
    var st0 :- Open(cfg.inputFile, None, io);
    var done :- Transform(st0, cfg);
    TransformDescribes(st0, cfg);
    var shown :- StatsStage(done, cfg);
    var written :- Save(done, OutputPath(cfg), cfg.outputFormat, CompressionArg(cfg), io);
    Ok(done)
  }

  /** Once the input is loaded, a step that must raise fails the run. */
  lemma StepFailureFailsRun(cfg: DatasetConfig, io: Io)
    requires PrepareOutput(cfg, io).Ok? && Open(cfg.inputFile, None, io).Ok?
    requires StepFails(Open(cfg.inputFile, None, io).value.df.columns, cfg)
    ensures ProcessData(cfg, io).Err?
  {
    StepFailureFailsTransform(Open(cfg.inputFile, None, io).value, cfg);
  }

  /** When the final frame has no row with a primary value, asking for
      statistics on sub-clusters makes the run raise IndexError, before the
      save. */
  lemma EmptyGroupingFailsRun(cfg: DatasetConfig, io: Io)
    requires cfg.showStats && Given(cfg.primaryColumn) && Given(cfg.subColumns)
    requires PrepareOutput(cfg, io).Ok? && Open(cfg.inputFile, None, io).Ok?
    requires Transform(Open(cfg.inputFile, None, io).value, cfg).Ok?
    requires ObservedKeys(Transform(Open(cfg.inputFile, None, io).value, cfg).value.df.rows,
                          cfg.primaryColumn.value) == {}
    ensures ProcessData(cfg, io) == Err(IndexError)
  {
    var done := Transform(Open(cfg.inputFile, None, io).value, cfg).value;
    var p := cfg.primaryColumn.value;
    assert SubKey(p, cfg.subColumns.value[0]) in done.subClusters;
    assert done.clusters[p] == map[];
  }

  /** With a recognised extension and the output directory created, a
      missing input file fails the run with FileNotFound before anything else
      happens. */
  lemma MissingInputFails(cfg: DatasetConfig, io: Io)
    requires PrepareOutput(cfg, io).Ok?
    requires DetectFormat(cfg.inputFile).Ok?
    requires !io.pathExists(cfg.inputFile)
    ensures ProcessData(cfg, io) == Err(FileNotFound(cfg.inputFile))
  {
  }

  /** Where the dataset options come from: a missing file, a file that is not
      valid JSON, a file that cannot be opened or decoded for another reason
      (which `load_config` does not catch), or the parsed mapping from
      dataset name to options. */
  datatype ConfigSource =
    | Missing
    | Malformed
    | Unreadable(reason: string)
    | Parsed(configs: map<string, DatasetConfig>)

  /** `load_config`: the parsed mapping; no datasets at all for a missing or
      malformed file; any other read error propagates. */
  function LoadConfig(src: ConfigSource): (r: Result<map<string, DatasetConfig>>)
    ensures src.Parsed? ==> r == Ok(src.configs)
    ensures src.Missing? || src.Malformed? ==> r == Ok(map[])
    ensures src.Unreadable? ==> r == Err(IoFailure(src.reason))
  {
    match src
    case Parsed(m) => Ok(m)
    case Unreadable(reason) => Err(IoFailure(reason))
    case _ => Ok(map[])
  }

  /** One dataset's entry in the batch result: the store, or `None` when the
      run raised. */
  function RunOutcome(cfg: DatasetConfig, io: Io): (o: Option<Processor>)
    ensures o.Some? <==> ProcessData(cfg, io).Ok?
    ensures o.Some? ==> o.value == ProcessData(cfg, io).value
  {
    match ProcessData(cfg, io)
    case Ok(dp) => Some(dp)
    case Err(_) => None
  }

  /** The batch result as a whole: one entry per configured name, every run
      seeing the same file system. */
  function BatchResults(configs: map<string, DatasetConfig>, io: Io): (results: map<string, Option<Processor>>)
    ensures results.Keys == configs.Keys
  {
    map name | name in configs :: RunOutcome(configs[name], io)
  }

  /** `process_all_datasets`: run every configured dataset, recording `None`
      for a run that raised and carrying on with the rest; a configuration
      read error other than a missing or malformed file propagates. */
  method ProcessAllDatasets(src: ConfigSource, io: Io) returns (results: Result<map<string, Option<Processor>>>)
    ensures LoadConfig(src).Err? ==> results == Err(LoadConfig(src).error)
    ensures LoadConfig(src).Ok? ==> results.Ok? && results.value.Keys == LoadConfig(src).value.Keys
    ensures results.Ok? ==>
              LoadConfig(src).Ok? &&
              forall name | name in results.value :: results.value[name] == RunOutcome(LoadConfig(src).value[name], io)
    ensures results.Ok? ==> results.value == BatchResults(LoadConfig(src).value, io)
  {
    var loaded := LoadConfig(src);
    if loaded.Err? {
      return Err(loaded.error);
    }
    var configs := loaded.value;
    var done := map[];
    var remaining := configs.Keys;
    while remaining != {}
      invariant remaining <= configs.Keys
      invariant done.Keys == configs.Keys - remaining
      invariant forall name | name in done :: done[name] == RunOutcome(configs[name], io)
      decreases remaining
    {
      var name :| name in remaining;
      done := done[name := RunOutcome(configs[name], io)];
      remaining := remaining - {name};
    }
    assert done == BatchResults(configs, io);
    results := Ok(done);
  }

  /** Failure isolation: each dataset's entry is what running it alone would
      give against the same file system, so one run's failure does not stop
      or change the others. */
  lemma BatchIsolatesFailures(configs: map<string, DatasetConfig>, io: Io, name: string)
    requires name in configs
    ensures BatchResults(configs, io)[name] == BatchResults(map[name := configs[name]], io)[name]
    ensures ProcessData(configs[name], io).Err? ==> BatchResults(configs, io)[name] == None
  {
  }

  /** A batch where one dataset's input file is missing still has an entry
      for every dataset; that one is `None`, the others are their own runs. */
  lemma BatchWithMissingInput(configs: map<string, DatasetConfig>, io: Io, bad: string)
    requires bad in configs
    requires PrepareOutput(configs[bad], io).Ok?
    requires DetectFormat(configs[bad].inputFile).Ok? && !io.pathExists(configs[bad].inputFile)
    ensures |BatchResults(configs, io)| == |configs|
    ensures BatchResults(configs, io)[bad] == None
    ensures forall name | name in configs && name != bad ::
              BatchResults(configs, io)[name] == RunOutcome(configs[name], io)
  {
    MissingInputFails(configs[bad], io);
    assert BatchResults(configs, io).Keys == configs.Keys;
  }

  /** A missing or malformed configuration runs nothing and yields an empty
      batch result. */
  lemma UnreadableConfigRunsNothing(src: ConfigSource, io: Io)
    requires src.Missing? || src.Malformed?
    ensures LoadConfig(src).Ok? && BatchResults(LoadConfig(src).value, io) == map[]
  {
  }

  /** `process_single_dataset`: an unknown name returns `None` without
      running anything; a known name runs the pipeline, and its failure is
      not caught, nor is a configuration read error. */
  function ProcessSingleDataset(name: string, src: ConfigSource, io: Io): (r: Result<Option<Processor>>)
    ensures LoadConfig(src).Err? ==> r == Err(LoadConfig(src).error)
    ensures LoadConfig(src).Ok? && name !in LoadConfig(src).value ==> r == Ok(None)
    ensures src.Missing? || src.Malformed? ==> r == Ok(None)
    ensures LoadConfig(src).Ok? && name in LoadConfig(src).value ==>
              var run := ProcessData(LoadConfig(src).value[name], io);
              (r.Ok? <==> run.Ok?) &&
              (r.Ok? ==> r.value == Some(run.value)) &&
              (r.Err? ==> r.error == run.error)
  {
    var configs :- LoadConfig(src);
    if name !in configs then Ok(None)
    else
      var dp :- ProcessData(configs[name], io);
      Ok(Some(dp))
  }

  /** The single run and the batch agree on a configured dataset, the batch
      turning the single run's failure into `None`. */
  lemma SingleAgreesWithBatch(name: string, src: ConfigSource, io: Io)
    requires LoadConfig(src).Ok? && name in LoadConfig(src).value
    ensures ProcessSingleDataset(name, src, io).Ok? ==>
              BatchResults(LoadConfig(src).value, io)[name] == ProcessSingleDataset(name, src, io).value
    ensures ProcessSingleDataset(name, src, io).Err? ==> BatchResults(LoadConfig(src).value, io)[name] == None
  {
  }
}

=== FILE: processing.dfy ===
/** The table store: one data frame plus the cluster and sub-cluster caches
    built over it, and the operations of the `DataProcessing` class as pure
    functions from one store state to the next. */
module Processing {
  import opened Base
  import opened Tables
  import opened Formats
  import opened Ordering
  import opened Grouping

  /** Primary groupings, keyed by column name. */
  type Clusters = map<string, map<Value, Table>>

  /** Two-level groupings, keyed by `SubKey(primary, sub)`. */
  type SubClusters = map<string, map<Value, map<Value, Table>>>

  /** The store state: the current frame and the two caches. */
  datatype Processor = Processor(df: Table, clusters: Clusters, subClusters: SubClusters)

  /** The file system and the format libraries, which the model does not
      look inside: whether a path exists, what a reader yields, whether a
      writer (given the format, path, frame and optional compression)
      succeeds, and whether `os.makedirs(dir, exist_ok=True)` succeeds. */
  datatype Io = Io(
    pathExists: string -> bool,
    read: (Format, string) -> Result<Table>,
    write: (Format, string, Table, Option<string>) -> Result<()>,
    makeDirs: string -> Result<()>)

  /** `from_dataframe`: a store over a given frame with empty caches. */
  function FromTable(t: Table): (st: Processor)
    ensures st.df == t && st.clusters == map[] && st.subClusters == map[]
  {
    Processor(t, map[], map[])
  }

  /** The format a read or write uses: detected from the path when none is
      given, otherwise the explicit name through the dispatch chain, without
      looking at the path at all. */
  function ResolveFormat(path: string, format: Option<string>): (r: Result<Format>)
    ensures format.None? ==> r == DetectFormat(path)
    ensures format.Some? ==> (r.Ok? <==> Dispatch(format.value).Some?)
    ensures format.Some? && r.Ok? ==> r.value == Dispatch(format.value).value
    ensures format.Some? && r.Err? ==> r.error == UnsupportedFormat(format.value)
  {
    match format
    case None => DetectFormat(path)
    case Some(name) =>
      match Dispatch(name)
      case Some(f) => Ok(f)
      case None => Err(UnsupportedFormat(name))
  }

  /** The constructor: detection (when no format is given) comes before the
      existence check, and the explicit-format dispatch after it. */
  function Open(filename: string, fileFormat: Option<string>, io: Io): (r: Result<Processor>)
    ensures fileFormat.None? && DetectFormat(filename).Err? ==> r == Err(DetectFormat(filename).error)
    ensures (fileFormat.Some? || DetectFormat(filename).Ok?) && !io.pathExists(filename) ==>
              r == Err(FileNotFound(filename))
    ensures fileFormat.Some? && io.pathExists(filename) && Dispatch(fileFormat.value).None? ==>
              r == Err(UnsupportedFormat(fileFormat.value))
    ensures r.Ok? ==> io.pathExists(filename) && ResolveFormat(filename, fileFormat).Ok?
    ensures r.Ok? ==> io.read(ResolveFormat(filename, fileFormat).value, filename) == Ok(r.value.df)
    ensures r.Ok? ==> r.value.clusters == map[] && r.value.subClusters == map[]
    ensures (ResolveFormat(filename, fileFormat).Ok? && io.pathExists(filename) &&
             io.read(ResolveFormat(filename, fileFormat).value, filename).Ok?) ==> r.Ok?
    ensures (ResolveFormat(filename, fileFormat).Ok? && io.pathExists(filename) &&
             io.read(ResolveFormat(filename, fileFormat).value, filename).Err?) ==>
              r == Err(io.read(ResolveFormat(filename, fileFormat).value, filename).error)
  {
    if fileFormat.None? && DetectFormat(filename).Err? then Err(DetectFormat(filename).error)
    else if !io.pathExists(filename) then Err(FileNotFound(filename))
    else
      var f :- ResolveFormat(filename, fileFormat);
      var t :- io.read(f, filename);
      Ok(FromTable(t))
  }

  /** `filter_by_column`: drop the rows whose `c` cell is in `drop`; the
      second component is the number of rows dropped. */
  function FilterByColumn(st: Processor, c: string, drop: seq<Value>): (r: Result<(Processor, nat)>)
    ensures r.Err? <==> c !in st.df.columns
    ensures r.Err? ==> r.error == KeyError(c)
    ensures r.Ok? ==> r.value.0.clusters == st.clusters && r.value.0.subClusters == st.subClusters
    ensures r.Ok? ==> r.value.0.df.columns == st.df.columns
    ensures r.Ok? ==> forall i | 0 <= i < |r.value.0.df.rows| :: !IsIn(r.value.0.df.rows[i], c, drop)
    ensures r.Ok? ==> forall x ::
              multiset(r.value.0.df.rows)[x] == if IsIn(x, c, drop) then 0 else multiset(st.df.rows)[x]
    ensures r.Ok? ==> Subsequence(r.value.0.df.rows, st.df.rows)
    ensures r.Ok? ==> r.value.1 == |st.df.rows| - |r.value.0.df.rows|
    ensures r.Ok? ==> r.value.1 == CountIn(st.df.rows, c, drop)
  {
    if c !in st.df.columns then Err(KeyError(c))
    else
      var rows := Where(st.df.rows, c, drop, false);
      WhereCounts(st.df.rows, c, drop);
      Ok((st.(df := Table(st.df.columns, rows)), |st.df.rows| - |rows|))
  }

  /** `keep_only_values`: keep only the rows whose `c` cell is in `keep`; the
      second component is the number of rows dropped. */
  function KeepOnlyValues(st: Processor, c: string, keep: seq<Value>): (r: Result<(Processor, nat)>)
    ensures r.Err? <==> c !in st.df.columns
    ensures r.Err? ==> r.error == KeyError(c)
    ensures r.Ok? ==> r.value.0.clusters == st.clusters && r.value.0.subClusters == st.subClusters
    ensures r.Ok? ==> r.value.0.df.columns == st.df.columns
    ensures r.Ok? ==> forall i | 0 <= i < |r.value.0.df.rows| :: IsIn(r.value.0.df.rows[i], c, keep)
    ensures r.Ok? ==> forall x ::
              multiset(r.value.0.df.rows)[x] == if IsIn(x, c, keep) then multiset(st.df.rows)[x] else 0
    ensures r.Ok? ==> Subsequence(r.value.0.df.rows, st.df.rows)
    ensures r.Ok? ==> r.value.1 == |st.df.rows| - |r.value.0.df.rows|
    ensures r.Ok? ==> r.value.1 == |st.df.rows| - CountIn(st.df.rows, c, keep)
  {
    if c !in st.df.columns then Err(KeyError(c))
    else
      var rows := Where(st.df.rows, c, keep, true);
      WhereCounts(st.df.rows, c, keep);
      Ok((st.(df := Table(st.df.columns, rows)), |st.df.rows| - |rows|))
  }

  /** Dropping the values `vals` of `c` and then keeping only those values
      leaves an empty frame with the same columns. */
  lemma FilterThenKeepIsEmpty(st: Processor, c: string, vals: seq<Value>)
    requires c in st.df.columns
    ensures var st1 := FilterByColumn(st, c, vals).value.0;
            KeepOnlyValues(st1, c, vals).Ok? &&
            KeepOnlyValues(st1, c, vals).value.0.df == Table(st.df.columns, [])
  {
  }

  /** `sort_by_custom_order`: title-case the column, turn cells outside the
      category list into missing ones, and order the rows by category rank
      with missing cells last. */
  function SortByCustomOrder(st: Processor, c: string, order: seq<string>): (r: Result<Processor>)
    ensures c !in st.df.columns ==> r == Err(KeyError(c))
    ensures c in st.df.columns && HasDuplicates(order) ==> r == Err(DuplicateCategories)
    ensures r.Ok? <==> c in st.df.columns && !HasDuplicates(order)
    ensures r.Ok? ==> r.value.clusters == st.clusters && r.value.subClusters == st.subClusters
    ensures r.Ok? ==> r.value.df.columns == st.df.columns
    ensures r.Ok? ==> |r.value.df.rows| == |st.df.rows|
    ensures r.Ok? ==> multiset(r.value.df.rows) == multiset(NormalizeAll(st.df.rows, c, order))
    ensures r.Ok? ==> SortedByRank(r.value.df.rows, c, order)
    ensures r.Ok? ==> forall i | 0 <= i < |r.value.df.rows| ::
              var v := Cell(r.value.df.rows[i], c); v == Null || (v.Str? && v.s in order)
  {
    if c !in st.df.columns then Err(KeyError(c))
    else if HasDuplicates(order) then Err(DuplicateCategories)
    else
      var normalized := NormalizeAll(st.df.rows, c, order);
      var sorted := SortRows(normalized, c, order);
      assert forall i | 0 <= i < |sorted| ::
        var v := Cell(sorted[i], c); v == Null || (v.Str? && v.s in order) by {
        forall i | 0 <= i < |sorted|
          ensures var v := Cell(sorted[i], c); v == Null || (v.Str? && v.s in order)
        {
          assert sorted[i] in multiset(normalized);
          NormalizedColumn(st.df.rows, c, order, sorted[i]);
        }
      }
      Ok(st.(df := Table(st.df.columns, sorted)))
  }

  /** `create_clusters`: group the current frame by `c` and store the
      grouping under `c`, replacing only that entry. */
  function CreateClusters(st: Processor, c: string): (r: Result<Processor>)
    ensures r.Err? <==> c !in st.df.columns
    ensures r.Err? ==> r.error == KeyError(c)
    ensures r.Ok? ==> r.value.df == st.df && r.value.subClusters == st.subClusters
    ensures r.Ok? ==> r.value.clusters.Keys == st.clusters.Keys + {c}
    ensures r.Ok? ==> forall d | d in st.clusters && d != c :: r.value.clusters[d] == st.clusters[d]
    ensures r.Ok? ==> PartitionOf(r.value.clusters[c], st.df, c)
    ensures r.Ok? ==> r.value.clusters[c].Keys == ObservedKeys(st.df.rows, c)
  {
    if c !in st.df.columns then Err(KeyError(c))
    else Ok(st.(clusters := st.clusters[c := GroupBy(st.df, c)]))
  }

  /** The cache key of a two-level grouping. */
  function SubKey(primary: string, sub: string): string {
    primary + "_" + sub
  }

  /** `create_sub_clusters`: reuse the primary grouping under `p` when there
      is one (however old), otherwise build it from the current frame; then
      group each primary group by `s` and store the result under `SubKey(p, s)`. */
  function CreateSubClusters(st: Processor, p: string, s: string): (r: Result<Processor>)
    ensures p !in st.clusters && p !in st.df.columns ==> r == Err(KeyError(p))
    ensures p in st.clusters ==> (r.Ok? <==> forall pv | pv in st.clusters[p] :: s in st.clusters[p][pv].columns)
    ensures r.Err? && (p in st.clusters || p in st.df.columns) ==> r.error == KeyError(s)
    ensures r.Ok? ==> r.value.df == st.df && p in r.value.clusters
    ensures r.Ok? && p in st.clusters ==> r.value.clusters == st.clusters
    ensures r.Ok? && p !in st.clusters ==>
              r.value.clusters.Keys == st.clusters.Keys + {p} &&
              (forall d | d in st.clusters :: r.value.clusters[d] == st.clusters[d]) &&
              PartitionOf(r.value.clusters[p], st.df, p)
    ensures r.Ok? ==> r.value.subClusters.Keys == st.subClusters.Keys + {SubKey(p, s)}
    ensures r.Ok? ==> forall k | k in st.subClusters && k != SubKey(p, s) ::
              r.value.subClusters[k] == st.subClusters[k]
    ensures r.Ok? ==> NestedPartitionOf(r.value.subClusters[SubKey(p, s)], r.value.clusters[p], s)
    ensures p !in st.clusters && p in st.df.columns ==>
              (r.Ok? <==> s in st.df.columns || ObservedKeys(st.df.rows, p) == {})
  {
    var st1 :- if p in st.clusters then Ok(st) else CreateClusters(st, p);
    var sub :- SubGroups(st1.clusters[p], s);
    Ok(st1.(subClusters := st1.subClusters[SubKey(p, s) := sub]))
  }

  /** `get_sub_cluster`: build the two-level grouping only when its key is
      absent, then look the pair up; a missing pair is `None`, not an error.
      The first component is the store after the call. */
  function GetSubCluster(st: Processor, p: string, s: string, pv: Value, sv: Value)
    : (r: Result<(Processor, Option<Table>)>)
    ensures SubKey(p, s) in st.subClusters ==> r.Ok? && r.value.0 == st
    ensures SubKey(p, s) !in st.subClusters ==>
              (r.Ok? <==> CreateSubClusters(st, p, s).Ok?) &&
              (r.Ok? ==> r.value.0 == CreateSubClusters(st, p, s).value)
    ensures r.Ok? ==> SubKey(p, s) in r.value.0.subClusters
    ensures r.Ok? ==>
              var m := r.value.0.subClusters[SubKey(p, s)];
              (r.value.1.Some? <==> pv in m && sv in m[pv]) &&
              (r.value.1.Some? ==> r.value.1.value == m[pv][sv])
  {
    var key := SubKey(p, s);
    var st1 :- if key in st.subClusters then Ok(st) else CreateSubClusters(st, p, s);
    var m := st1.subClusters[key];
    Ok((st1, if pv in m && sv in m[pv] then Some(m[pv][sv]) else None))
  }

  /** `s.rstrip('/')`. */
  function StripTrailingSlashes(s: string): (r: string)
    ensures |r| <= |s| && r == s[..|r|]
    ensures forall i | |r| <= i < |s| :: s[i] == '/'
    ensures |r| > 0 ==> r[|r| - 1] != '/'
    decreases |s|
  {
    if |s| > 0 && s[|s| - 1] == '/' then StripTrailingSlashes(s[..|s| - 1]) else s
  }

  /** `os.path.dirname` on a POSIX path: everything up to the last
      separator, with trailing separators removed unless that leaves
      nothing (so "/x" gives "/"). */
  function Dirname(p: string): (d: string)
    ensures |d| <= |p| && d == p[..|d|]
    ensures d == "" <==> forall i | 0 <= i < |p| :: p[i] != '/'
    ensures d != "" ==> d[|d| - 1] != '/' || forall i | 0 <= i < |d| :: d[i] == '/'
    ensures var k := LastIndex(p, '/');
            k >= 0 ==> |d| <= k + 1 && (forall i | |d| <= i <= k :: p[i] == '/') &&
                       (|d| == k + 1 || (|d| > 0 && p[|d| - 1] != '/'))
  {
    var head := p[..LastIndex(p, '/') + 1];
    if exists j | 0 <= j < |head| :: head[j] != '/' then
      var d := StripTrailingSlashes(head);
      assert d != "" by {
        var j :| 0 <= j < |head| && head[j] != '/';
        assert j < |d|;
      }
      d
    else
      if head != "" then assert p[LastIndex(p, '/')] == '/'; head else head
  }

  /** A bare file name has no directory part; a rooted one has the root. */
  lemma DirnameOfShortPaths()
    ensures Dirname("data.csv") == ""
    ensures Dirname("/data.csv") == "/"
  {
    LastIndexBefore("data.csv", '/', 0);
    LastIndexAt("/data.csv", '/', 0);
  }

  /** A nested path keeps every directory, without the final separator. */
  lemma DirnameOfNestedPath()
    ensures Dirname("out/sub/data.csv") == "out/sub"
  {
    LastIndexAt("out/sub/data.csv", '/', 7);
    assert "out/sub/data.csv"[..8] == "out/sub/" && "out/sub/"[0] != '/';
    assert "out/sub/"[..7] == "out/sub";
  }

  /** Repeated separators before the file name are all dropped. */
  lemma DirnameOfDoubledSeparator()
    ensures Dirname("out//data.csv") == "out"
  {
    LastIndexAt("out//data.csv", '/', 4);
    assert "out//data.csv"[..5] == "out//" && "out//"[0] != '/';
    assert "out//"[..4] == "out/" && "out/"[..3] == "out";
  }

  /** The directory creation in the writer: only when the path has a
      directory part. */
  function MakeParent(path: string, io: Io): (r: Result<()>)
    ensures Dirname(path) == "" ==> r == Ok(())
    ensures Dirname(path) != "" ==> r == io.makeDirs(Dirname(path))
  {
    if Dirname(path) != "" then io.makeDirs(Dirname(path)) else Ok(())
  }

  /** `save_ordered_data`: detect the format when none is given, create the
      output directory, dispatch an explicit format name, then hand the frame
      to the writer. The result is the format written. */
  function Save(st: Processor, path: string, format: Option<string>, compression: Option<string>, io: Io)
    : (r: Result<Format>)
    ensures format.None? && DetectFormat(path).Err? ==> r == Err(DetectFormat(path).error)
    ensures !(format.None? && DetectFormat(path).Err?) && MakeParent(path, io).Err? ==>
              r == Err(MakeParent(path, io).error)
    ensures format.Some? && MakeParent(path, io).Ok? && Dispatch(format.value).None? ==>
              r == Err(UnsupportedFormat(format.value))
    ensures r.Ok? ==> ResolveFormat(path, format) == Ok(r.value) && MakeParent(path, io).Ok?
    ensures r.Ok? ==> io.write(r.value, path, st.df, compression) == Ok(())
    ensures (ResolveFormat(path, format).Ok? && MakeParent(path, io).Ok? &&
             io.write(ResolveFormat(path, format).value, path, st.df, compression).Ok?) ==> r.Ok?
    ensures (ResolveFormat(path, format).Ok? && MakeParent(path, io).Ok? &&
             io.write(ResolveFormat(path, format).value, path, st.df, compression).Err?) ==>
              r == Err(io.write(ResolveFormat(path, format).value, path, st.df, compression).error)
  {
    if format.None? && DetectFormat(path).Err? then Err(DetectFormat(path).error)
    else
      var made :- MakeParent(path, io);
      var f :- ResolveFormat(path, format);
      var written :- io.write(f, path, st.df, compression);
      Ok(f)
  }

  /** Every cached primary group holds only rows carrying its key (the rows
      of whatever frame the grouping was built from). */
  ghost predicate CachesConsistent(st: Processor) {
    forall c | c in st.clusters :: KeyedBy(st.clusters[c], c)
  }

  ghost predicate KeyedBy(g: map<Value, Table>, c: string) {
    forall k | k in g :: AllHave(g[k].rows, c, k)
  }

  /** Filtering, keeping and sorting leave the caches alone, so they stay
      consistent even though the frame changes under them. */
  lemma SelectionsKeepCachesConsistent(st: Processor, c: string, vals: seq<Value>, order: seq<string>)
    requires CachesConsistent(st)
    ensures FilterByColumn(st, c, vals).Ok? ==> CachesConsistent(FilterByColumn(st, c, vals).value.0)
    ensures KeepOnlyValues(st, c, vals).Ok? ==> CachesConsistent(KeepOnlyValues(st, c, vals).value.0)
    ensures SortByCustomOrder(st, c, order).Ok? ==> CachesConsistent(SortByCustomOrder(st, c, order).value)
  {
  }

  /** Clustering and sub-clustering keep the caches consistent, so a freshly
      built sub-cluster holds only rows with both requested values. */
  lemma ClusteringKeepsCachesConsistent(st: Processor, c: string, s: string)
    requires CachesConsistent(st)
    ensures CreateClusters(st, c).Ok? ==> CachesConsistent(CreateClusters(st, c).value)
    ensures CreateSubClusters(st, c, s).Ok? ==> CachesConsistent(CreateSubClusters(st, c, s).value)
  {
    if CreateClusters(st, c).Ok? {
      var st1 := CreateClusters(st, c).value;
      forall d | d in st1.clusters
        ensures KeyedBy(st1.clusters[d], d)
      {
        if d == c {
          assert PartitionOf(st1.clusters[c], st.df, c);
        } else {
          assert st1.clusters[d] == st.clusters[d];
        }
      }
    }
  }

  /** A sub-cluster that `GetSubCluster` had to build holds only rows whose
      primary and secondary cells are the requested values. */
  lemma FreshSubClusterMatches(st: Processor, p: string, s: string, pv: Value, sv: Value)
    requires CachesConsistent(st)
    requires SubKey(p, s) !in st.subClusters
    requires GetSubCluster(st, p, s, pv, sv).Ok?
    requires GetSubCluster(st, p, s, pv, sv).value.1.Some?
    ensures AllHave(GetSubCluster(st, p, s, pv, sv).value.1.value.rows, p, pv)
    ensures AllHave(GetSubCluster(st, p, s, pv, sv).value.1.value.rows, s, sv)
  {
    var st1 := CreateSubClusters(st, p, s).value;
    ClusteringKeepsCachesConsistent(st, p, s);
    var g := st1.clusters[p];
    var sub := st1.subClusters[SubKey(p, s)][pv][sv].rows;
    assert KeyedBy(g, p);
    assert PartitionOf(st1.subClusters[SubKey(p, s)][pv], g[pv], s);
    forall i | 0 <= i < |sub|
      ensures Cell(sub[i], p) == pv
    {
      assert multiset(sub)[sub[i]] > 0;
      assert multiset(g[pv].rows)[sub[i]] > 0;
      assert sub[i] in g[pv].rows;
    }
  }

  /** The key format joins with "_", so two different (primary, sub) pairs
      can name the same cache entry. */
  lemma SubKeyCollides()
    ensures ("a_b", "c") != ("a", "b_c")
    ensures SubKey("a_b", "c") == SubKey("a", "b_c")
  {
  }

  /** For a fixed primary column, different sub columns get different keys. */
  lemma SubKeyInjectiveInSub(p: string, s1: string, s2: string)
    requires SubKey(p, s1) == SubKey(p, s2)
    ensures s1 == s2
  {
    assert s1 == SubKey(p, s1)[|p| + 1..];
    assert s2 == SubKey(p, s2)[|p| + 1..];
  }

  /** Once ("a_b", "c") is built, a lookup for ("a", "b_c") is answered from
      that entry without building its own. */
  lemma CollidingLookupReusesEntry(st: Processor, pv: Value, sv: Value)
    requires CreateSubClusters(st, "a_b", "c").Ok?
    ensures var st1 := CreateSubClusters(st, "a_b", "c").value;
            GetSubCluster(st1, "a", "b_c", pv, sv).Ok? &&
            GetSubCluster(st1, "a", "b_c", pv, sv).value.0 == st1
  {
    SubKeyCollides();
  }

  /** Sub-clustering reuses a cached primary grouping without looking at the
      frame: two stores that differ only in their frame build the same
      sub-clusters. */
  lemma SubClustersIgnoreFrame(st: Processor, t: Table, p: string, s: string)
    requires p in st.clusters
    ensures CreateSubClusters(st, p, s).Ok? == CreateSubClusters(st.(df := t), p, s).Ok?
    ensures CreateSubClusters(st, p, s).Ok? ==>
              CreateSubClusters(st, p, s).value.subClusters ==
              CreateSubClusters(st.(df := t), p, s).value.subClusters
  {
  }

  /** The stale-cache hazard: after clustering by `c` and then dropping the
      values `vals` of `c`, the cached groups of the dropped values are still
      there, and none of their rows is in the frame any more. */
  lemma FilterLeavesStaleClusters(st: Processor, c: string, vals: seq<Value>, k: Value, x: Row)
    requires CreateClusters(st, c).Ok?
    requires k in vals
    ensures var st1 := CreateClusters(st, c).value;
            var st2 := FilterByColumn(st1, c, vals).value.0;
            c in st2.clusters && st2.clusters[c] == st1.clusters[c] &&
            (k in st2.clusters[c] && x in st2.clusters[c][k].rows ==> x !in st2.df.rows)
  {
    var st1 := CreateClusters(st, c).value;
    var f := FilterByColumn(st1, c, vals);
    assert f.Ok?;
    var st2 := f.value.0;
    var g := st1.clusters[c];
    if k in g && x in g[k].rows {
      GroupRowHasKey(g, st.df, c, k, x);
      ListedValueMatches(x, c, vals);
      assert multiset(st2.df.rows)[x] == 0;
    }
  }

  /** A row of a group carries the group's key. */
  lemma GroupRowHasKey(g: map<Value, Table>, t: Table, c: string, k: Value, x: Row)
    requires PartitionOf(g, t, c)
    requires k in g && x in g[k].rows
    ensures Cell(x, c) == k
  {
    var i :| 0 <= i < |g[k].rows| && g[k].rows[i] == x;
  }
}

=== FILE: tables.dfy ===
/** The in-memory table: rows of named cells holding tagged scalar values,
    and the order-preserving row selection every filter and grouping uses. */
module Tables {

  /** A dynamically typed scalar cell; `Null` is pandas' missing value. */
  datatype Value = Null | Bool(b: bool) | Int(i: int) | Real(r: real) | Str(s: string)

  /** One record: column name to cell. */
  type Row = map<string, Value>

  /** A data frame: its column labels and its rows, in order. */
  datatype Table = Table(columns: set<string>, rows: seq<Row>)

  /** The cell of `r` under column `c`; a row without the column reads as missing. */
  function Cell(r: Row, c: string): Value {
    if c in r then r[c] else Null
  }

  /** Every row carries exactly the table's columns (no ragged rows). */
  ghost predicate WellFormed(t: Table) {
    forall i | 0 <= i < |t.rows| :: t.rows[i].Keys == t.columns
  }

  /** `a` is `b` with some elements removed, the rest in their original order. */
  ghost predicate Subsequence<T>(a: seq<T>, b: seq<T>)
    decreases |b|
  {
    if |a| == 0 then true
    else if |b| == 0 then false
    else (a[0] == b[0] && Subsequence(a[1..], b[1..])) || Subsequence(a, b[1..])
  }

  /** Every sequence is a subsequence of itself. */
  lemma {:induction false} SubsequenceRefl<T>(a: seq<T>)
    ensures Subsequence(a, a)
    decreases |a|
  {
    if |a| > 0 {
      SubsequenceRefl(a[1..]);
    }
  }

  /** Removing elements twice is removing elements once. */
  lemma {:induction false} SubsequenceTrans<T>(a: seq<T>, b: seq<T>, c: seq<T>)
    requires Subsequence(a, b) && Subsequence(b, c)
    ensures Subsequence(a, c)
    decreases |c|
  {
    if |a| > 0 {
      if b[0] == c[0] && Subsequence(b[1..], c[1..]) {
        if a[0] == b[0] && Subsequence(a[1..], b[1..]) {
          SubsequenceTrans(a[1..], b[1..], c[1..]);
        } else {
          SubsequenceTrans(a, b[1..], c[1..]);
        }
      } else {
        SubsequenceTrans(a, b, c[1..]);
      }
    }
  }

  /** One step of an order-preserving selection: keeping or skipping the
      head of `rows` in front of a selection `rest` of its tail. */
  lemma SelectStep<T>(rows: seq<T>, rest: seq<T>, keep: T -> bool)
    requires |rows| > 0
    requires forall x :: multiset(rest)[x] == if keep(x) then multiset(rows[1..])[x] else 0
    requires forall i | 0 <= i < |rest| :: keep(rest[i])
    requires Subsequence(rest, rows[1..])
    ensures var r := if keep(rows[0]) then [rows[0]] + rest else rest;
            && (forall x :: multiset(r)[x] == if keep(x) then multiset(rows)[x] else 0)
            && (forall i | 0 <= i < |r| :: keep(r[i]))
            && Subsequence(r, rows)
  {
    assert rows == [rows[0]] + rows[1..];
    var r := if keep(rows[0]) then [rows[0]] + rest else rest;
    if keep(rows[0]) {
      assert r[1..] == rest;
      forall i | 0 <= i < |r|
        ensures keep(r[i])
      {
        if i > 0 {
          assert r[i] == rest[i - 1];
        }
      }
    }
  }

  /** The elements of `rows` that pass `keep`, in their original order. */
  function Select<T(!new)>(rows: seq<T>, keep: T -> bool): (r: seq<T>)
    ensures forall i | 0 <= i < |r| :: keep(r[i])
    ensures forall x :: multiset(r)[x] == if keep(x) then multiset(rows)[x] else 0
    ensures Subsequence(r, rows)
    ensures |r| <= |rows|
    decreases |rows|
  {
    if |rows| == 0 then []
    else
      var rest := Select(rows[1..], keep);
      SelectStep(rows, rest, keep);
      if keep(rows[0]) then [rows[0]] + rest else rest
  }

  /** Every row has the value `v` under column `c`. */
  ghost predicate AllHave(rows: seq<Row>, c: string, v: Value) {
    forall i | 0 <= i < |rows| :: Cell(rows[i], c) == v
  }

  /** Booleans, integers and floats: the values Python compares as numbers. */
  predicate IsNumber(v: Value) {
    v.Bool? || v.Int? || v.Real?
  }

  /** The numeric value Python gives a number (`True` is 1, `False` is 0). */
  function AsReal(v: Value): real
    requires IsNumber(v)
  {
    match v
    case Bool(b) => if b then 1.0 else 0.0
    case Int(i) => i as real
    case Real(x) => x
  }

  /** Python's `==` on cells as `isin` applies it: numbers compare by value
      across types, so `1 == 1.0 == True`; anything else compares
      structurally, and a missing value matches a missing value. */
  predicate Same(a: Value, b: Value) {
    if IsNumber(a) && IsNumber(b) then AsReal(a) == AsReal(b) else a == b
  }

  /** `Same` is an equivalence that is coarser than structural equality. */
  lemma SameIsEquivalence(a: Value, b: Value, c: Value)
    ensures Same(a, a)
    ensures Same(a, b) ==> Same(b, a)
    ensures Same(a, b) && Same(b, c) ==> Same(a, c)
    ensures Same(a, b) && !IsNumber(a) ==> a == b
  {
  }

  /** Values of different tags that Python nevertheless treats as equal. */
  lemma NumbersMatchAcrossTypes()
    ensures Same(Int(1), Real(1.0)) && Same(Bool(true), Int(1)) && Same(Bool(false), Real(0.0))
    ensures !Same(Int(1), Str("1")) && !Same(Null, Int(0))
  {
  }

  /** Does `v` equal one of `vals`, scanning the list from the front? */
  predicate MatchesAny(v: Value, vals: seq<Value>)
    decreases |vals|
  {
    |vals| > 0 && (Same(v, vals[0]) || MatchesAny(v, vals[1..]))
  }

  /** The scan finds a match exactly when some listed value is equal to `v`. */
  lemma {:induction false} MatchesAnyIff(v: Value, vals: seq<Value>)
    ensures MatchesAny(v, vals) <==> exists i | 0 <= i < |vals| :: Same(v, vals[i])
    decreases |vals|
  {
    if |vals| > 0 {
      MatchesAnyIff(v, vals[1..]);
      if exists i | 0 <= i < |vals| :: Same(v, vals[i]) {
        var i :| 0 <= i < |vals| && Same(v, vals[i]);
        if i > 0 {
          assert vals[1..][i - 1] == vals[i];
        }
      }
      if exists i | 0 <= i < |vals[1..]| :: Same(v, vals[1..][i]) {
        var i :| 0 <= i < |vals[1..]| && Same(v, vals[1..][i]);
        assert vals[i + 1] == vals[1..][i];
      }
    }
  }

  /** Does the row's cell under `c` equal one of `vals` (pandas `isin`)? */
  predicate IsIn(r: Row, c: string, vals: seq<Value>) {
    MatchesAny(Cell(r, c), vals)
  }

  /** A listed value is always matched, whatever else the list holds. */
  lemma ListedValueMatches(r: Row, c: string, vals: seq<Value>)
    requires Cell(r, c) in vals
    ensures IsIn(r, c, vals)
  {
    var i :| 0 <= i < |vals| && vals[i] == Cell(r, c);
    assert Same(Cell(r, c), vals[i]);
    MatchesAnyIff(Cell(r, c), vals);
  }

  /** Every row's membership of its `c` cell in `vals` equals `inside`. */
  ghost predicate AllSatisfy(rows: seq<Row>, c: string, vals: seq<Value>, inside: bool) {
    forall i | 0 <= i < |rows| :: IsIn(rows[i], c, vals) == inside
  }

  /** A row-wise property survives taking a sub-multiset of the rows. */
  lemma AllSatisfyOfFewer(a: seq<Row>, b: seq<Row>, c: string, vals: seq<Value>, inside: bool)
    requires AllSatisfy(a, c, vals, inside)
    requires multiset(b) <= multiset(a)
    ensures AllSatisfy(b, c, vals, inside)
  {
    forall i | 0 <= i < |b|
      ensures IsIn(b[i], c, vals) == inside
    {
      assert b[i] in multiset(b);
      assert b[i] in a;
    }
  }

  /** The rows whose membership of their `c` cell in `vals` equals `inside`,
      in their original order: `df[df[c].isin(vals)]` for `inside` and
      `df[~df[c].isin(vals)]` otherwise. */
  function Where(rows: seq<Row>, c: string, vals: seq<Value>, inside: bool): (r: seq<Row>)
    ensures forall i | 0 <= i < |r| :: IsIn(r[i], c, vals) == inside
    ensures forall x :: multiset(r)[x] == if IsIn(x, c, vals) == inside then multiset(rows)[x] else 0
    ensures forall x | x in r :: x in rows
    ensures Subsequence(r, rows)
    ensures |r| <= |rows|
  {
    Select(rows, x => IsIn(x, c, vals) == inside)
  }

  /** How many rows have their `c` cell in `vals`. */
  function CountIn(rows: seq<Row>, c: string, vals: seq<Value>): nat
    decreases |rows|
  {
    if |rows| == 0 then 0
    else (if IsIn(rows[0], c, vals) then 1 else 0) + CountIn(rows[1..], c, vals)
  }

  /** Keeping the rows in `vals` keeps exactly as many rows as match. */
  lemma {:induction false} WhereCounts(rows: seq<Row>, c: string, vals: seq<Value>)
    ensures |Where(rows, c, vals, true)| == CountIn(rows, c, vals)
    ensures |Where(rows, c, vals, false)| == |rows| - CountIn(rows, c, vals)
    decreases |rows|
  {
    if |rows| > 0 {
      WhereCounts(rows[1..], c, vals);
    }
  }

  /** Selection never produces a ragged table from a well-formed one. */
  lemma WhereKeepsShape(t: Table, c: string, vals: seq<Value>, inside: bool)
    requires WellFormed(t)
    ensures WellFormed(Table(t.columns, Where(t.rows, c, vals, inside)))
  {
    var r := Where(t.rows, c, vals, inside);
    forall i | 0 <= i < |r|
      ensures r[i].Keys == t.columns
    {
      assert r[i] in t.rows;
    }
  }

  /** Dropping the rows in `vals` and keeping the rows in `vals` split the
      table: together they hold every row exactly as often as before. */
  lemma WhereSplits(rows: seq<Row>, c: string, vals: seq<Value>)
    ensures multiset(Where(rows, c, vals, false)) + multiset(Where(rows, c, vals, true)) == multiset(rows)
    ensures |Where(rows, c, vals, false)| + |Where(rows, c, vals, true)| == |rows|
  {
    var out := Where(rows, c, vals, false);
    var kept := Where(rows, c, vals, true);
    assert multiset(out) + multiset(kept) == multiset(rows);
    assert |multiset(out) + multiset(kept)| == |multiset(rows)|;
  }

  /** Keeping `vals` after dropping `vals` leaves nothing. */
  lemma DropThenKeepIsEmpty(rows: seq<Row>, c: string, vals: seq<Value>)
    ensures Where(Where(rows, c, vals, false), c, vals, true) == []
  {
  }
}

=== FILE: text.dfy ===
/** ASCII case handling: the lower-casing applied to file extensions and the
    title-casing applied to a category column before it is ordered. */
module Text {

  predicate IsUpper(ch: char) {
    'A' <= ch <= 'Z'
  }

  predicate IsLower(ch: char) {
    'a' <= ch <= 'z'
  }

  /** The cased characters of the model: ASCII letters. */
  predicate IsLetter(ch: char) {
    IsUpper(ch) || IsLower(ch)
  }

  /** ASCII lower-casing: 'A'..'Z' move to 'a'..'z', all else stays. */
  function ToLower(ch: char): (r: char)
    ensures IsLetter(r) == IsLetter(ch)
    ensures !IsUpper(r)
    ensures !IsUpper(ch) ==> r == ch
    ensures IsUpper(ch) ==> r as int == ch as int + 32
  {
    if IsUpper(ch) then (ch as int + 32) as char else ch
  }

  /** ASCII upper-casing: 'a'..'z' move to 'A'..'Z', all else stays. */
  function ToUpper(ch: char): (r: char)
    ensures IsLetter(r) == IsLetter(ch)
    ensures !IsLower(r)
    ensures !IsLower(ch) ==> r == ch
    ensures IsLower(ch) ==> r as int == ch as int - 32
  {
    if IsLower(ch) then (ch as int - 32) as char else ch
  }

  /** The two case mappings undo each other on letters: a letter's lower-
      and upper-case forms are each other's images. */
  lemma CaseRoundTrip(ch: char)
    ensures ToLower(ToUpper(ch)) == ToLower(ch)
    ensures ToUpper(ToLower(ch)) == ToUpper(ch)
  {
  }

  /** Lower-case every character (Python's `str.lower` restricted to ASCII). */
  function Lower(s: string): (r: string)
    ensures |r| == |s|
    ensures forall i | 0 <= i < |r| :: !IsUpper(r[i])
    ensures forall i | 0 <= i < |r| :: r[i] == ToLower(s[i])
  {
    seq(|s|, i requires 0 <= i < |s| => ToLower(s[i]))
  }

  /** Python's `str.title`: the first letter of every run of letters is
      upper-cased, the others lower-cased; `afterLetter` says whether the
      character before `s` was a letter. */
  function TitleFrom(s: string, afterLetter: bool): string
    decreases |s|
  {
    if |s| == 0 then ""
    else if IsLetter(s[0]) then
      [if afterLetter then ToLower(s[0]) else ToUpper(s[0])] + TitleFrom(s[1..], true)
    else
      [s[0]] + TitleFrom(s[1..], false)
  }

  /** Python's `str.title()` on ASCII text. */
  function Title(s: string): string {
    TitleFrom(s, false)
  }

  /** The position-wise reading of title case: a letter is upper-cased exactly
      when it does not follow a letter; everything else is left alone. */
  function TitleCharAt(s: string, i: nat): char
    requires i < |s|
  {
    if !IsLetter(s[i]) then s[i]
    else if i > 0 && IsLetter(s[i - 1]) then ToLower(s[i])
    else ToUpper(s[i])
  }

  ghost predicate IsTitleOf(t: string, s: string) {
    && |t| == |s|
    && forall i | 0 <= i < |s| :: t[i] == TitleCharAt(s, i)
  }

  lemma {:induction false} TitleFromLength(s: string, afterLetter: bool)
    ensures |TitleFrom(s, afterLetter)| == |s|
    decreases |s|
  {
    if |s| > 0 {
      TitleFromLength(s[1..], IsLetter(s[0]));
    }
  }

  /** Character `i` of `TitleFrom(s, afterLetter)`, read off `s` alone. */
  lemma {:induction false} TitleFromAt(s: string, afterLetter: bool, i: nat)
    requires i < |s|
    ensures |TitleFrom(s, afterLetter)| == |s|
    ensures TitleFrom(s, afterLetter)[i] ==
      (if !IsLetter(s[i]) then s[i]
       else if (if i == 0 then afterLetter else IsLetter(s[i - 1])) then ToLower(s[i])
       else ToUpper(s[i]))
    decreases |s|
  {
    TitleFromLength(s, afterLetter);
    if i > 0 {
      var rest := s[1..];
      TitleFromAt(rest, IsLetter(s[0]), i - 1);
      assert TitleFrom(s, afterLetter)[i] == TitleFrom(rest, IsLetter(s[0]))[i - 1];
      assert rest[i - 1] == s[i];
      if i > 1 {
        assert rest[i - 2] == s[i - 1];
      }
    }
  }

  /** Title agrees with the position-wise description. */
  lemma TitleIsTitleCase(s: string)
    ensures IsTitleOf(Title(s), s)
  {
    TitleFromLength(s, false);
    forall i | 0 <= i < |s|
      ensures Title(s)[i] == TitleCharAt(s, i)
    {
      TitleFromAt(s, false, i);
    }
  }

  lemma {:induction false} TitleFromIdempotent(s: string, afterLetter: bool)
    ensures TitleFrom(TitleFrom(s, afterLetter), afterLetter) == TitleFrom(s, afterLetter)
    decreases |s|
  {
    if |s| > 0 {
      var t := TitleFrom(s, afterLetter);
      var next := IsLetter(s[0]);
      TitleFromIdempotent(s[1..], next);
      assert t[1..] == TitleFrom(s[1..], next);
      assert IsLetter(t[0]) == next;
    }
  }

  /** Title-casing an already title-cased string changes nothing. */
  lemma TitleIdempotent(s: string)
    ensures Title(Title(s)) == Title(s)
  {
    TitleFromIdempotent(s, false);
  }
}
